=== FILE: README.md ===
# Critical Temperature Gauge — a Dafny model of the monitoring core

The Critical Temperature Gauge add-on watches every part of the active vessel. Each part has a
core temperature, a skin temperature and a limit for each. The add-on looks for the part with
the greatest temperature-to-limit ratio, called its *index*. It shows the gauge when that index
rises above a showing threshold and hides it when the index falls below a lower hiding
threshold. It can flash a highlight on the critical part, and it writes temperature labels into
the part's context menu. Temperature rates come from exponential smoothing of the change between
two samples: the weight is 0.5 for the core and 0.1 for the skin, and the time span is counted
twice.

The repository holds two generations of the add-on. This project models both, each as written:

- `CriticalTemperatureGauge/` (modules `Root*`). A per-part `PartTemperatureState` module keeps
  the samples and is subject to an exclusion list. Parts are excluded by name, by title or by
  module. The highlighter advances its colour by elapsed time. The flight controller selects the
  critical part and also drives the highlight.
- `src/CriticalTemperatureGauge/` (modules `Src*`). The flight controller takes a fresh
  `PartState` snapshot of each part that is not ignored. Only the modules on the list are
  ignored. The rates of the critical part are derived from the previous snapshot of the same
  part. The highlighter advances a frame counter. The src generation also has formatting helpers
  (`Format`, `Extensions`).

Shared pieces:

- `Text`: the .NET `Trim`, `Split`, `IndexOf` and the comma-list parser. Both settings classes
  use these.
- `Thermal`: the ratio, `Math.Max`, the smoothing step and its constants.
- `Selection`: `OrderByDescending(...).FirstOrDefault()` as a first arg-max. It also has a
  filtered form.
- `GaugeGate`: the show/hide hysteresis both flight controllers use.
- `Variants`: relates the two generations. It includes one point where they differ.

Host values are parameters of the operations:

- the clock (`Planetarium.GetUniversalTime`) and the warp rate;
- the scene and physics-hold flags and whether the vessel is the active one;
- the part data;
- the part catalogue (`PartLoader`);
- the `ToString("F<n>")` number formatter and `Localizer.Format`.

Highlight side effects are returned as a list of `HighlightAction`s. A `null` reference is an
`Option`, and C# `double` is `real`.

## Model

| member | source | states |
|---|---|---|
| Text.Trim | CriticalTemperatureGauge/Settings.cs:67 | the result has no white space at either end; it is the contiguous middle of the input; everything cut off on either side is white space |
| Text.TrimOfTrimmed | CriticalTemperatureGauge/Settings.cs:67 | trimming a string that is already trimmed gives it back unchanged |
| Text.Split | CriticalTemperatureGauge/Settings.cs:66 | `Split` always yields at least one piece, and no piece contains the separator |
| Text.JoinSplit | CriticalTemperatureGauge/Settings.cs:66 | joining the pieces of `Split` with the separator rebuilds the original string |
| Text.ParseCommaList | CriticalTemperatureGauge/Settings.cs:66-69 | every exclusion-list item is non-empty, trimmed and free of commas |
| Text.ParseSinglePiece | CriticalTemperatureGauge/Settings.cs:66-69 | a comma-free piece parses to its trimmed form, or to no item when that is empty; with `ParseCommaListConcat` this fixes the parser on every input |
| Text.ParseCommaListConcat | src/CriticalTemperatureGauge/Settings.cs:67-70 | parsing `a + "," + b` gives the items of `a` followed by the items of `b` |
| Text.ParseEmptyList | CriticalTemperatureGauge/Settings.cs:127 | the default empty exclusion string yields no items |
| Text.ParseJoinedItems | CriticalTemperatureGauge/Settings.cs:66-69 | a list of non-empty, trimmed, comma-free names survives a round trip: joined with commas and parsed again, it comes back exactly |
| Text.IndexOf | src/CriticalTemperatureGauge/PartTemperatureState.cs:118 | -1 exactly when the character is absent; otherwise the position of its first occurrence |
| Text.Padding | src/CriticalTemperatureGauge/Format.cs:37-38 | the pad is `max(0, width - length)` figure spaces |
| Thermal.Max | src/CriticalTemperatureGauge/PartState.cs:40-41 | the result is one of the two arguments and not below either |
| Thermal.Index | CriticalTemperatureGauge/PartTemperatureState.cs:34-40 | the index is at least both ratios, and it equals the ratio of the side that `IsSkinCritical` picks |
| Thermal.SmoothedRate | CriticalTemperatureGauge/PartTemperatureState.cs:129-134 | one smoothing step shrinks the gap to the observed slope by the factor `1 - alpha`, so the new rate lies between the old rate and the slope |
| Thermal.SmoothedRateFixedPoint | src/CriticalTemperatureGauge/PartTemperatureState.cs:75-78 | the rate stays the same exactly when it already equals the observed slope |
| Thermal.IndexMonotonic | src/CriticalTemperatureGauge/PartTemperatureState.cs:41 | raising either ratio never lowers the index |
| Selection.FirstMax | CriticalTemperatureGauge/Flight.cs:176-180 | None exactly for an empty input; otherwise the first position holding the greatest key |
| Selection.FirstMaxUnique | CriticalTemperatureGauge/Flight.cs:179-180 | the first arg-max is unique, so the selection is deterministic |
| Selection.InsertDescending | CriticalTemperatureGauge/Flight.cs:179 | one step of the stable descending sort: it keeps every element, and a new element goes to the head only when its key is strictly greater than the head's key |
| Selection.OrderByDescending | CriticalTemperatureGauge/Flight.cs:179 | the sort of the first n positions returns n entries, each a valid position of the keys (ordering and permutation: `Selection.OrderByDescendingSorts`) |
| Selection.InsertKeepsStableOrder | CriticalTemperatureGauge/Flight.cs:179 | inserting a position later than all sorted ones keeps the list descending with ties in original order, and adds exactly that position |
| Selection.OrderByDescendingSorts | CriticalTemperatureGauge/Flight.cs:179 | the result is a permutation of 0 .. n-1, descending by key, with equal keys in their original order (LINQ's stable sort) |
| Selection.SortHeadIsFirstMax | CriticalTemperatureGauge/Flight.cs:179-180 | the head of the stable descending sort is the first occurrence of the maximum |
| Selection.FirstMaxIsHeadOfStableSort | CriticalTemperatureGauge/Flight.cs:179-180 | `FirstOrDefault` of the stable descending sort equals the first arg-max, including on empty input |
| Selection.FirstKeptMax | src/CriticalTemperatureGauge/Flight.cs:74-79 | after filtering: None exactly when nothing is kept; otherwise the first kept position whose key is not beaten by any kept key |
| Selection.FirstMaxOfKept | src/CriticalTemperatureGauge/Flight.cs:75-79 | the first arg-max of the kept keys maps back to the first kept arg-max of the whole list |
| Selection.FirstKeptMaxOfAll | CriticalTemperatureGauge/Flight.cs:176-180 | without a filter, filtered selection is plain first arg-max |
| Selection.FirstKeptMaxIgnoresDropped | src/CriticalTemperatureGauge/Flight.cs:76-78 | the keys of filtered-out parts cannot change the choice |
| GaugeGate.NextVisible | CriticalTemperatureGauge/Flight.cs:135-148 | a hidden gauge appears iff a critical part exists and its index is above the showing threshold or the override is on; a visible gauge disappears iff there is no critical part, or its index is below the hiding threshold and the override is off |
| GaugeGate.BandKeepsVisibility | src/CriticalTemperatureGauge/Flight.cs:50-67 | an index inside [hiding, showing] leaves visibility as it was (hysteresis) |
| GaugeGate.OverrideFollowsPresence | CriticalTemperatureGauge/Flight.cs:135-148 | with `AlwaysShowGauge`/`ForceShowGauge` on, the gauge is visible exactly when there is a critical part |
| GaugeGate.BandRunKeepsVisibility | src/CriticalTemperatureGauge/Flight.cs:50-67 | over any run of frames whose indices all stay in the band, visibility never changes |
| GaugeGate.RunEndsOutsideBand | CriticalTemperatureGauge/Flight.cs:135-148 | when hiding ≤ showing, the last frame with an index outside the band, or with no critical part, alone decides visibility, whatever came before |
| RootSettings.SetGaugeShowingThreshold | CriticalTemperatureGauge/Settings.cs:39-45 | the stored threshold always lies in (0, 1): the value when it is in range, 0.5 otherwise; nothing else changes |
| RootSettings.SetGaugeHidingThreshold | CriticalTemperatureGauge/Settings.cs:47-53 | the stored hiding threshold is the smaller of the current showing threshold and the value (0.4 when the value is outside (0,1)); nothing else changes |
| RootSettings.SetExclusionList | CriticalTemperatureGauge/Settings.cs:59-72 | the raw string is kept verbatim and the items are exactly the parse of it: the comma-separated pieces, trimmed, empty ones dropped, in order (so non-empty, trimmed, comma-free) |
| RootSettings.HidingSetterOrders | CriticalTemperatureGauge/Settings.cs:47-53 | after a valid showing threshold, writing the hiding threshold leaves 0 < hiding ≤ showing < 1 |
| RootSettings.ShowingSetterDoesNotRecap | CriticalTemperatureGauge/Settings.cs:39-53 | lowering the showing threshold later does not re-cap the hiding threshold, so the pair can end up out of order (0.3 < 0.4) |
| RootSettings.Load | CriticalTemperatureGauge/Settings.cs:103-129 | the showing threshold is the stored value when in (0, 1), else 0.5; the hiding threshold is the stored value when in (0, 1), else 0.4, capped by the showing threshold loaded before it; so the pair is always ordered; the exclusion list and its items, `AlwaysShowGauge`, `HighlightCriticalPart`, `UseExclusionList` and the three `PartMenuTemperature*` switches take the stored value or their defaults |
| RootSettings.LoadDefaults | CriticalTemperatureGauge/Settings.cs:110-127 | an empty configuration yields exactly the documented defaults |
| RootSettings.HidingFirstWouldCollapse | CriticalTemperatureGauge/Settings.cs:116-117 | declaration order matters: had the hiding threshold been assigned first, the blank showing threshold of 0 would have capped it to 0 |
| RootSettings.LoadCapsHidingByLoadedShowing | CriticalTemperatureGauge/Settings.cs:116-117 | stored (0.9, 0.2) loads as (0.9, 0.2); stored (0.3, 0.7) loads as (0.3, 0.3) |
| SrcSettings.SetGaugeShowingThreshold | src/CriticalTemperatureGauge/Settings.cs:32-38 | as the root setter: always in (0, 1), 0.5 for out-of-range values |
| SrcSettings.SetGaugeHidingThreshold | src/CriticalTemperatureGauge/Settings.cs:40-46 | the smaller of the current showing threshold and the value (0.4 when the value is outside (0,1)); nothing else changes |
| SrcSettings.SetBaseWindowId | src/CriticalTemperatureGauge/Settings.cs:48-54 | the stored id is never 0: writing 0 stores -130716, any other value is stored as is |
| SrcSettings.SetExclusionList | src/CriticalTemperatureGauge/Settings.cs:60-73 | the raw string is kept; the items are exactly its parse: the comma-separated pieces, trimmed, empty ones dropped, in order |
| SrcSettings.HidingSetterOrders | src/CriticalTemperatureGauge/Settings.cs:40-46 | after a valid showing threshold, writing the hiding threshold leaves the pair ordered |
| SrcSettings.LoadSwitchesAndThresholds | src/CriticalTemperatureGauge/Settings.cs:107-119 | the switches and thresholds that `Load` assigns leave the thresholds ordered |
| SrcSettings.Load | src/CriticalTemperatureGauge/Settings.cs:100-122 | thresholds as in the root `Load`: stored value or default, the hiding one capped by the loaded showing one, so always ordered; the exclusion list and its items, `ForceShowGauge`, `UseExclusionList` and `HighlightCriticalPart` (default false) take the stored value or their defaults |
| SrcSettings.LoadLeavesBaseWindowIdZero | src/CriticalTemperatureGauge/Settings.cs:100-122 | as written, `Load` never assigns `BaseWindowId`, so the loaded id is 0 whatever the file holds |
| SrcSettings.LoadWithBaseWindowId | src/CriticalTemperatureGauge/Settings.cs:48-54 | corrected load: same as `Load`, except that the stored id goes through the setter: a stored nonzero id is kept, a stored 0 or a missing key gives -130716, so it is never 0 |
| SrcSettings.LoadDefaults | src/CriticalTemperatureGauge/Settings.cs:107-120 | an empty configuration yields exactly the documented defaults, including `HighlightCriticalPart = false`; as written the window id is 0, the corrected load gives -130716 |
| RootWindow.Show | CriticalTemperatureGauge/Window.cs:57-60 | the window becomes logically visible; it is visible iff F2 has not hidden the UI |
| RootWindow.Hide | CriticalTemperatureGauge/Window.cs:62-65 | the window is neither logically nor actually visible; nothing else changes |
| RootWindow.Toggle | CriticalTemperatureGauge/Window.cs:67-70 | flips logical visibility and nothing else |
| RootWindow.ToggleInvolution | CriticalTemperatureGauge/Window.cs:67-70 | toggling twice restores the window |
| RootWindow.GetRectangle | CriticalTemperatureGauge/Window.cs:33-36 | the first read caches the initial rectangle; later reads return the cached one |
| RootWindow.RectangleReadOnce | CriticalTemperatureGauge/Window.cs:36 | once read, the rectangle no longer depends on the initial rectangle |
| RootWindow.SetRectangle | CriticalTemperatureGauge/Window.cs:37-41 | stores the rectangle and reports it to the update hook |
| RootWindow.DrawGUI | CriticalTemperatureGauge/Window.cs:72-88 | draws nothing unless the window is visible; otherwise stores the laid-out rectangle, each of position and size taken from the fixed one where given and from the layout of the current rectangle otherwise; visibility is untouched |
| SrcWindow.Show | src/CriticalTemperatureGauge/Window.cs:40-43 | the window becomes visible; nothing else changes |
| SrcWindow.Hide | src/CriticalTemperatureGauge/Window.cs:45-48 | the window becomes invisible; nothing else changes |
| SrcWindow.GetRectangle | src/CriticalTemperatureGauge/Window.cs:20-25 | the first read caches the initial rectangle; later reads return the cached one |
| SrcWindow.RectangleReadOnce | src/CriticalTemperatureGauge/Window.cs:24 | once read, the rectangle no longer depends on the initial rectangle |
| SrcWindow.SetRectangle | src/CriticalTemperatureGauge/Window.cs:26-30 | stores the rectangle and reports it to the update hook |
| SrcWindow.DrawGUI | src/CriticalTemperatureGauge/Window.cs:50-61 | draws only while visible, then stores the laid-out rectangle |
| RootHighlighter.SetHighlightedPart | CriticalTemperatureGauge/Highlighter.cs:32-67 | the old part is reset exactly when the target changes, and before the new part is lit; the new part is lit in the current colour; the colour advances by one step, modulo 3, only when a part is lit and more than 0.166 × warp rate has elapsed |
| RootHighlighter.ColourChangesWithTime | CriticalTemperatureGauge/Highlighter.cs:61-65 | the colour changes exactly when the change time is updated |
| SrcHighlighter.ColourOf | src/CriticalTemperatureGauge/Highlighter.cs:56 | frames 0-3 are yellow, 4-7 red and 8-11 blue |
| SrcHighlighter.SetHighlightedPart | src/CriticalTemperatureGauge/Highlighter.cs:31-60 | the reset and lighting rules as in the root generation; the frame counter advances modulo 12 on every call, with or without a part |
| SrcHighlighter.RunCounter | src/CriticalTemperatureGauge/Highlighter.cs:59 | after n calls the counter has moved n steps modulo 12 |
| SrcHighlighter.ColourBlocks | src/CriticalTemperatureGauge/Highlighter.cs:56-59 | starting fresh, call 4k+j (j < 4) uses colour k mod 3, so each colour lasts four frames |
| SrcExtensions.FieldWidth | src/CriticalTemperatureGauge/Extensions.cs:13 | the field width counts the decimal point only when there are fractional places |
| SrcExtensions.ToUnsignedString | src/CriticalTemperatureGauge/Extensions.cs:10-15 | the number is right-aligned in the field with figure spaces; a number wider than the field is not cut |
| SrcExtensions.ToSignedString | src/CriticalTemperatureGauge/Extensions.cs:17-23 | padding, then the sign (U+2212 for negatives, `+` otherwise), then the digits of the absolute value |
| SrcExtensions.SignedDigitsIgnoreSign | src/CriticalTemperatureGauge/Extensions.cs:19-22 | negating a positive value changes only the sign character |
| SrcFormat.Then | src/CriticalTemperatureGauge/Format.cs:28-31 | a value exactly when the condition holds |
| SrcFormat.ToUnsignedString | src/CriticalTemperatureGauge/Format.cs:34-39 | right-aligned integer digits padded with figure spaces |
| SrcFormat.ToSignedString | src/CriticalTemperatureGauge/Format.cs:41-47 | padding, then the chosen minus or plus string, then the digits of the absolute value |
| SrcFormat.PaddingAgreesWithExtensions | src/CriticalTemperatureGauge/Format.cs:34-47 | with zero fractional places, the private `Format` helpers give the same strings as the `Extensions` ones |
| SrcFormat.Temperature | src/CriticalTemperatureGauge/Format.cs:11-14 | the label starts with the four-place temperature and ends with a space and the Kelvin unit; without a limit nothing else lies between them |
| SrcFormat.TemperatureLimitInserted | src/CriticalTemperatureGauge/Format.cs:11-14 | giving a limit inserts exactly " / " and the three-place limit after the temperature |
| SrcFormat.TemperatureRate | src/CriticalTemperatureGauge/Format.cs:16-17 | three spaces, the one-place signed rate, a space and the K/s unit |
| SrcFormat.TemperatureWithRate | src/CriticalTemperatureGauge/Format.cs:19-22 | without a rate the label is the temperature label; with one, it is extended by the en-dash-signed rate and the unit |
| SrcFormat.PartName | src/CriticalTemperatureGauge/Format.cs:24-25 | the name with the localised "Skin" or "Core" side in parentheses |
| SrcPartState.CriticalSide | src/CriticalTemperatureGauge/PartState.cs:33-41 | the skin side is critical iff its ratio is strictly greater; the index is at least both ratios and equals the critical temperature over its limit; the critical rate is the rate of that side |
| SrcPartState.ReadIndex | src/CriticalTemperatureGauge/PartState.cs:38-41 | the first read computes and caches the index; later reads return the cached value; nothing else changes |
| SrcPartState.IndexMemoised | src/CriticalTemperatureGauge/PartState.cs:38-41 | once read, the index does not follow later changes to the temperatures or limits |
| SrcPartState.UpdateTemperatureRates | src/CriticalTemperatureGauge/PartState.cs:45-59 | no change without a previous state of the same id; otherwise a positive doubled span takes the smoothing step from the previous rates, and a non-positive one copies them; only the rates change |
| SrcPartState.RatesStepFromOlderState | src/CriticalTemperatureGauge/PartState.cs:49-57 | a strictly older sample of the same part always gives the smoothing step, and the temperatures stay as sampled |
| SrcPartState.RateExample | src/CriticalTemperatureGauge/PartState.cs:49-63 | from 300 K to 310 K in one second (span 2 s) the core rate becomes 0.5 × 10 / 2 = 2.5 |
| SrcPartState.RatesHeldOnNonPositiveSpan | src/CriticalTemperatureGauge/PartState.cs:49-57 | when the previous sample is not older, the previous rates are carried over, and repeating the update changes nothing |
| RootPartTemperatureState.CriticalSide | CriticalTemperatureGauge/PartTemperatureState.cs:34-40 | strict skin-over-core choice; the index bounds both ratios and is the critical temperature over its limit; the critical rate follows the side |
| RootPartTemperatureState.UpdateExclusionStatus | CriticalTemperatureGauge/PartTemperatureState.cs:45-59 | without the list a part is never ignored; with it, a part is ignored iff its name, its title or one of its modules is excluded; an ignored part loses its labels and menu fields; nothing else changes |
| RootPartTemperatureState.ExclusionMonotonic | CriticalTemperatureGauge/PartTemperatureState.cs:47-51 | enlarging the exclusion sets never un-ignores a part |
| RootPartTemperatureState.ExclusionIdempotent | CriticalTemperatureGauge/PartTemperatureState.cs:45-59 | refreshing the exclusion status twice gives the same result as once |
| RootPartTemperatureState.InitValues | CriticalTemperatureGauge/PartTemperatureState.cs:68-82 | takes the current time, title, limits and temperatures; zeroes the rates; applies the exclusion status; a kept part keeps its menu labels and fields, an ignored part has both labels cleared and both fields switched off |
| RootPartTemperatureState.FixedUpdate | CriticalTemperatureGauge/PartTemperatureState.cs:120-145 | nothing changes for an ignored part, outside flight, under physics hold, before initialisation (Time ≤ 0) or without elapsed time; otherwise both rates take a smoothing step over twice the elapsed time, the new sample is stored and the time advances; only the sample fields change |
| RootPartTemperatureState.FixedUpdateOncePerInstant | CriticalTemperatureGauge/PartTemperatureState.cs:122-139 | a second physics tick at the same instant changes nothing, whatever the part now reports |
| RootPartTemperatureState.FirstTickAfterInit | CriticalTemperatureGauge/PartTemperatureState.cs:73-134 | the first tick after initialisation gives core rate 0.5 × slope and skin rate 0.1 × slope, the slope using the doubled span |
| RootPartTemperatureState.Update | CriticalTemperatureGauge/PartTemperatureState.cs:84-118 | off the active vessel the module is removed; otherwise, for a kept part in flight, the labels and fields appear exactly when `PartMenuTemperature` is on; a label carries the limit and the rate only when their switches are on; only labels and fields change |
| RootPartTemperatureState.UpdateKeepsSample | CriticalTemperatureGauge/PartTemperatureState.cs:84-141 | the menu update never disturbs the next physics tick's sample or rates |
| SrcPartTemperatureState.CriticalSide | src/CriticalTemperatureGauge/PartTemperatureState.cs:35-41 | strict skin-over-core choice; the index bounds both ratios and is the critical temperature over its limit |
| SrcPartTemperatureState.ShortName | src/CriticalTemperatureGauge/PartTemperatureState.cs:118-121 | the part name up to, not including, its first space; the whole name when there is no space |
| SrcPartTemperatureState.GetPartTitle | src/CriticalTemperatureGauge/PartTemperatureState.cs:115-133 | the catalogue title of the short name when it exists and is not empty, else the short name |
| SrcPartTemperatureState.PartTitleNonEmpty | src/CriticalTemperatureGauge/PartTemperatureState.cs:118-131 | a name that does not start with a space always gets a non-empty title |
| SrcPartTemperatureState.InitValues | src/CriticalTemperatureGauge/PartTemperatureState.cs:50-65 | takes time, title, limits and temperatures; zeroes the rates; the menu is untouched |
| SrcPartTemperatureState.MenuLabel | src/CriticalTemperatureGauge/PartTemperatureState.cs:84-101 | a label exists iff `PartMenuTemperature` is on; it starts with the temperature text (with a limit iff its switch is on) and ends with the localised rate iff the rate switch is on |
| SrcPartTemperatureState.FixedUpdate | src/CriticalTemperatureGauge/PartTemperatureState.cs:67-106 | outside flight or under hold nothing changes; otherwise the menu fields follow `PartMenuTemperature` on every tick; the sample, the rates and the labels change only for an initialised module with elapsed time, and the labels use the new values; title and limits never change |
| SrcPartTemperatureState.FixedUpdateOncePerInstant | src/CriticalTemperatureGauge/PartTemperatureState.cs:71-104 | a second tick at the same instant changes nothing |
| SrcPartTemperatureState.FieldsFollowSwitchOnFirstTick | src/CriticalTemperatureGauge/PartTemperatureState.cs:57-104 | a tick at the initialisation instant already sets the menu fields from the switch, and the rates stay 0 |
| RootFlight.GetPartState | CriticalTemperatureGauge/Flight.cs:185-191 | returns the part's module, if any; a part without one gets a fresh module attached, but this call still returns none |
| RootFlight.AttachMissing | CriticalTemperatureGauge/Flight.cs:168-171 | every part is passed through `GetPartState`, in order |
| RootFlight.RefreshPart | CriticalTemperatureGauge/Flight.cs:162-166 | an existing module gets its exclusion status refreshed; a missing one is attached fresh |
| RootFlight.UpdateExcludedParts | CriticalTemperatureGauge/Flight.cs:162-166 | every part is refreshed, in order |
| RootFlight.GetCriticalPartState | CriticalTemperatureGauge/Flight.cs:176-180 | None exactly when no part carries a kept module; otherwise the module of the first part with the greatest index among kept modules |
| RootFlight.AttachingAddsNoCandidate | CriticalTemperatureGauge/Flight.cs:185-191 | a module attached during this frame is not a candidate, so attaching does not change the selection |
| RootFlight.HighlightTarget | CriticalTemperatureGauge/Flight.cs:151-158 | the critical part is highlighted iff highlighting is on, it exists, and its index is above the showing threshold, or above the hiding threshold while something is already highlighted |
| RootFlight.HighlightHysteresis | CriticalTemperatureGauge/Flight.cs:151-158 | inside the band, the highlight stays exactly as it was |
| RootFlight.HotPartIsHighlighted | CriticalTemperatureGauge/Flight.cs:151-158 | above the showing threshold the critical part is always the highlight target |
| RootFlight.PartsForSelection | CriticalTemperatureGauge/Flight.cs:124-128 | the exclusion refresh runs exactly when the list has changed |
| RootFlight.Update | CriticalTemperatureGauge/Flight.cs:119-160 | no vessel: nothing happens. Otherwise: the change flag is cleared, the exclusion status is refreshed if needed, the critical part is selected, visibility follows the hysteresis gate, and the highlighter is driven by the highlight rule |
| RootFlight.UpdateAttachesModules | CriticalTemperatureGauge/Flight.cs:124-131 | after a frame every part has a module: new ones fresh, existing ones refreshed only when the list changed |
| RootFlight.NoCandidateHidesGauge | CriticalTemperatureGauge/Flight.cs:130-158 | with no candidate, the critical state is cleared, the gauge is hidden and nothing stays highlighted |
| SrcFlight.IsPartNotIgnored | src/CriticalTemperatureGauge/Flight.cs:99-100 | a part is ignored iff the list is in use and one of its items names a module on the part |
| SrcFlight.PartTitlesAgree | src/CriticalTemperatureGauge/Flight.cs:120-141 | the controller's title lookup agrees with the module's |
| SrcFlight.GetPartState | src/CriticalTemperatureGauge/Flight.cs:84-94 | the snapshot holds the current time, the flight id, the title, the limits and temperatures; its rates are 0 and its index is not yet computed |
| SrcFlight.GetCriticalPartState | src/CriticalTemperatureGauge/Flight.cs:74-79 | None exactly when every part is ignored; otherwise the snapshot of the first part with the greatest index among kept parts, with the index cached by the sort |
| SrcFlight.CriticalIndexIsCached | src/CriticalTemperatureGauge/Flight.cs:74-79 | the cached index is the snapshot's true index |
| SrcFlight.CriticalIndex | src/CriticalTemperatureGauge/Flight.cs:50-63 | the gate reads the cached index |
| SrcFlight.HandOver | src/CriticalTemperatureGauge/Flight.cs:45-47 | the new critical state is the snapshot with its rates derived from the previous critical state |
| SrcFlight.Update | src/CriticalTemperatureGauge/Flight.cs:38-69 | no window or no vessel: nothing happens. Otherwise the critical state is handed over and visibility follows the hysteresis gate with `ForceShowGauge` |
| SrcFlight.RatesInheritedOnlyFromSamePart | src/CriticalTemperatureGauge/Flight.cs:45-47 | when there was no previous critical state, or the part now critical is a different one (still aboard or not), the new critical state has zero rates |
| SrcFlight.CriticalStateTakenNow | src/CriticalTemperatureGauge/Flight.cs:84-94 | the selected snapshot is taken now and has zero rates |
| SrcFlight.HandOverStep | src/CriticalTemperatureGauge/Flight.cs:45-47 | the same part, seen again later, takes the smoothing step from its previous rates |
| SrcFlight.RatesFollowSamePart | src/CriticalTemperatureGauge/Flight.cs:45-47 | when the same part stays critical, its rates continue the smoothing from the previous frame |
| Variants.PartModulesAgree | CriticalTemperatureGauge/PartTemperatureState.cs:120-141 | for a kept part, the root and the src module take the same sample and rate step on every tick |
| Variants.SnapshotAgreesWithModule | src/CriticalTemperatureGauge/PartState.cs:45-59 | once the previous sample has a positive time, the src snapshot hand-over computes the same rates as the root module |
| Variants.SnapshotHasNoInitialisedGuard | src/CriticalTemperatureGauge/PartState.cs:47-53 | the snapshot hand-over has no `Time > 0` guard: from a time-0 sample it gives rate 2.5, where the module keeps 0 |

## Left out

- Drawing and UI: the IMGUI drawing of the gauge, settings and config windows; the altimeter; toolbar and AppLauncher registration; `GameEvents` hooks. `Start`, `OnDestroy` and `OnGUI` of the flight controllers are not modelled either. These are host UI plumbing.
- Settings I/O: `Save` and the `PluginConfiguration` file are not modelled. `Load` reads from a `Stored` map of typed values instead.
- Window geometry settings: the window positions of both generations and the root `GaugeWindowScale` are not modelled; the monitoring logic does not read them. The src `ShowAppLauncherButton` switch is loaded as a field, but nothing in the core reads it.
- Floating-point edge cases: IEEE-754 NaN, infinities and zero limits. Ratios are taken only of positive limits, which the `Monitorable` and `HasPositiveLimits` requirements state. Ordering among NaN keys is therefore not modelled.
- RootFlight.Update: requires positive limits on every candidate module after the exclusion refresh. The source divides by whatever limit the game reports.
- SrcFlight.Update: requires positive limits on every part that is not ignored, for the same reason.
- RootFlight.GetCriticalPartState: the positive-limit requirement also excludes one source case. An exclusion refresh can make a module a candidate before its `InitValues` coroutine has run; its limits are still 0, so the source would sort a 0/0 index.
- Host functions: `double.ToString("F<n>")` and `Localizer.Format` are given functions. Their digits and translations are not modelled.
- Root labels: `CriticalTemperatureGauge/Format.cs` is not part of this model. The root `PartTemperatureState.Update` takes the label format as a parameter.
- `CriticalTemperatureGauge/Extensions.cs` and both `Static.cs` files are not part of this model. Only the src `Extensions` helpers the menu labels call are modelled.
- Exclusion lookup: `ExcludedNames`, `ExcludedModules` and `ExclusionListChanged` of the root generation are given inputs; the model does not build them. Membership is exact set membership, so the case sensitivity of the source's comparers is not modelled.
- src part-menu switches: the src `PartTemperatureState` reads `PartMenuTemperature*` switches, which the src `Settings.cs` does not declare. The model passes them in as `PartMenuSettings`.
- Coroutine timing: the coroutine in `InitValues` waits for flight, the physics hold and two fixed frames. That waiting is not modelled; `InitValues` is the moment the coroutine resumes.
- Module lifecycle: `AddModule` is modelled as attaching a fresh module, and `RemoveModule` as `Update` returning no module.
- Part references: the src `PartState.Part` property is never assigned by the controller, so it stays empty in the model.
- Unused code: `HighlightNone`/`HighlightPart` in the src `Flight.cs` are not modelled; nothing calls them.
- Negative `fracPlaces`: it is a `nat`, because a negative count would make the .NET format string invalid.
- 32-bit window ids: `Int32` arithmetic on window ids (`BaseWindowId + 1`) is outside the model.

## Findings

| source | as written | input that shows it | evidently intended | confidence | as-written member | corrected member |
|---|---|---|---|---|---|---|
| src/CriticalTemperatureGauge/Settings.cs:100-122 | `Load` never assigns `BaseWindowId`, so its backing field stays 0, although the setter at lines 48-54 never stores 0; `GaugeWindow.cs:39` uses it as the gauge window id | any configuration, e.g. an empty file: `Load().BaseWindowId == 0` | `BaseWindowId` is loaded through its setter and is never 0 (default -130716) | not executed | SrcSettings.LoadLeavesBaseWindowIdZero | SrcSettings.LoadWithBaseWindowId |

=== FILE: gauge_gate.dfy ===
/** The show/hide decision both `Flight.Update` methods make each frame, with two thresholds
    and an override switch (`AlwaysShowGauge` in the root generation, `ForceShowGauge` in
    `src`). The critical index is `None` when there is no critical part. */
module GaugeGate {
  import opened Wrappers

  /** The first branch: a hidden gauge is shown for a critical part above the showing
      threshold, or for any critical part under the override. */
  predicate ShowsGauge(visible: bool, index: Option<real>, showing: real, force: bool)
  {
    !visible && index.Some? && (index.value > showing || force)
  }

  /** The `else if` branch: a visible gauge is hidden when there is no critical part, or
      when the index is below the hiding threshold and there is no override. */
  predicate HidesGauge(visible: bool, index: Option<real>, hiding: real, force: bool)
  {
    visible && (index.None? || (index.value < hiding && !force))
  }

  /** The visibility after one frame. */
  function NextVisible(visible: bool, index: Option<real>, showing: real, hiding: real, force: bool): (r: bool)
    ensures !visible ==> (r <==> index.Some? && (index.value > showing || force))
    ensures visible ==> (!r <==> index.None? || (index.value < hiding && !force))
  {
    if ShowsGauge(visible, index, showing, force) then true
    else if HidesGauge(visible, index, hiding, force) then false
    else visible
  }

  /** An index inside the band [hiding, showing] never toggles the gauge. */
  lemma BandKeepsVisibility(visible: bool, index: real, showing: real, hiding: real)
    requires hiding <= index <= showing
    ensures NextVisible(visible, Some(index), showing, hiding, false) == visible
  {
  }

  /** Under the override the gauge is shown exactly while there is a critical part. */
  lemma OverrideFollowsPresence(visible: bool, index: Option<real>, showing: real, hiding: real)
    ensures NextVisible(visible, index, showing, hiding, true) <==> index.Some?
  {
  }

  /** The visibility after a run of frames with the given indices, thresholds fixed. */
  function Run(visible: bool, indices: seq<Option<real>>, showing: real, hiding: real, force: bool): bool
    decreases |indices|
  {
    if |indices| == 0 then visible
    else Run(NextVisible(visible, indices[0], showing, hiding, force), indices[1..], showing, hiding, force)
  }

  /** Hysteresis: over any run of frames whose indices all stay in the band, the gauge keeps
      the visibility it started with. */
  lemma {:induction false} BandRunKeepsVisibility(visible: bool, indices: seq<Option<real>>,
                                                  showing: real, hiding: real)
    requires forall k :: 0 <= k < |indices| ==> indices[k].Some? && hiding <= indices[k].value <= showing
    ensures Run(visible, indices, showing, hiding, false) == visible
    decreases |indices|
  {
    if |indices| > 0 {
      BandKeepsVisibility(visible, indices[0].value, showing, hiding);
      BandRunKeepsVisibility(visible, indices[1..], showing, hiding);
    }
  }

  /** With ordered thresholds the last frame decides when its index lies outside the band:
      above the showing threshold the gauge ends visible, below the hiding threshold (or with
      no critical part, and no override) it ends hidden, whatever came before. */
  lemma {:induction false} RunEndsOutsideBand(visible: bool, indices: seq<Option<real>>, last: Option<real>,
                                              showing: real, hiding: real)
    requires hiding <= showing
    requires last.None? || last.value > showing || last.value < hiding
    ensures Run(visible, indices + [last], showing, hiding, false) == (last.Some? && last.value > showing)
    decreases |indices|
  {
    if |indices| == 0 {
      assert indices + [last] == [last];
    } else {
      assert (indices + [last])[1..] == indices[1..] + [last];
      RunEndsOutsideBand(NextVisible(visible, indices[0], showing, hiding, false), indices[1..], last, showing, hiding);
    }
  }
}

=== FILE: host.dfy ===
/** Values the add-on receives from Unity and KSP, kept abstract. */
module Host {

  /** Object identity of a KSP `Part`; two references are equal iff they are the same part. */
  type PartRef = nat

  /** C#'s `uint`, the type of `Part.flightID`. */
  type UInt32 = x: int | 0 <= x < 0x1_0000_0000

  /** Unity `Vector2`. */
  datatype Vector2 = Vector2(x: real, y: real)

  /** Unity `Rect`, as a position and a size. */
  datatype Rect = Rect(position: Vector2, size: Vector2)

  /** The three colours a highlighted part cycles through. */
  datatype Colour = Yellow | Red | Blue

  /** `HighlightColors`: the same sequence in both generations of `Highlighter`. */
  const HighlightColors: seq<Colour> := [Yellow, Red, Blue]

  /** What a call of `Highlighter.SetHighlightedPart` does to the parts, in order. */
  datatype HighlightAction =
    | ResetHighlight(part: PartRef)                  // SetHighlightDefault + SetHighlight(false)
    | ApplyHighlight(part: PartRef, colour: Colour)  // AlwaysOn + SetHighlightColor + SetHighlight(true)

  /** `value.ToString("F" + places, InvariantCulture)`: formatting is the runtime's, not modelled. */
  type NumberFormat = (real, nat) -> string

  /** `Localizer.Format(key, args)`: localisation tables are the game's, not modelled. */
  type Localizer = (string, seq<string>) -> string

  /** The host's formatting services. */
  datatype Formatting = Formatting(number: NumberFormat, localize: Localizer)
}

=== FILE: root_flight.dfy ===
/** The per-frame driver of the root generation (CriticalTemperatureGauge/Flight.cs,
    `Update` and the static helpers it calls): exclusion refresh, critical-part selection,
    the gauge gate and the highlight target. */
module RootFlight {
  import opened Wrappers
  import opened Host
  import Selection
  import GaugeGate
  import RootSettings
  import RootWindow
  import RootHighlighter
  import PTS = RootPartTemperatureState

  /** A vessel part: its identity, what its module reads from it, and its
      `PartTemperatureState` module if it has one. */
  datatype Part = Part(ref: PartRef, data: PTS.PartData, temperatureState: Option<PTS.PartTemperatureState>)

  /** A module together with the part it sits on (`partTemperatureState.part`). */
  datatype CriticalPart = CriticalPart(part: PartRef, state: PTS.PartTemperatureState)

  /** The add-on's state between frames. */
  datatype Flight = Flight(
    settings: RootSettings.Settings,
    exclusionListChanged: bool,
    gaugeWindow: RootWindow.Window,
    highlighter: RootHighlighter.Highlighter,
    criticalPartState: Option<CriticalPart>)

  /** `GetPartState`: the part's module, or null after adding a fresh module to a part that
      had none. */
  function GetPartState(p: Part): (r: (Option<PTS.PartTemperatureState>, Part))
    ensures r.0 == p.temperatureState
    ensures p.temperatureState.Some? ==> r.1 == p
    ensures p.temperatureState.None? ==> r.1 == p.(temperatureState := Some(PTS.Fresh))
  {
    match p.temperatureState
    case Some(state) => (Some(state), p)
    case None => (None, p.(temperatureState := Some(PTS.Fresh)))
  }

  /** The parts after one enumeration of `GetPartTemperatureStates`: every part now has a
      module, and those that had one keep it. */
  function AttachMissing(parts: seq<Part>): (r: seq<Part>)
    ensures |r| == |parts|
    ensures forall i :: 0 <= i < |parts| ==> r[i] == GetPartState(parts[i]).1
  {
    seq(|parts|, i requires 0 <= i < |parts| => GetPartState(parts[i]).1)
  }

  function RefreshPart(p: Part, useExclusionList: bool, sets: PTS.ExclusionSets): (r: Part)
    ensures r.ref == p.ref && r.data == p.data
    ensures p.temperatureState.None? ==> r.temperatureState == Some(PTS.Fresh)
    ensures p.temperatureState.Some? ==> r.temperatureState == Some(PTS.UpdateExclusionStatus(p.temperatureState.value, useExclusionList, sets, p.data))
  {
    match p.temperatureState
    case Some(state) => p.(temperatureState := Some(PTS.UpdateExclusionStatus(state, useExclusionList, sets, p.data)))
    case None => p.(temperatureState := Some(PTS.Fresh))
  }

  /** `UpdateExcludedParts`: every existing module recomputes its exclusion status; the
      enumeration also gives every part without a module a fresh one, which is not refreshed. */
  function UpdateExcludedParts(parts: seq<Part>, useExclusionList: bool, sets: PTS.ExclusionSets): (r: seq<Part>)
    ensures |r| == |parts|
    ensures forall i :: 0 <= i < |parts| ==> r[i] == RefreshPart(parts[i], useExclusionList, sets)
  {
    seq(|parts|, i requires 0 <= i < |parts| => RefreshPart(parts[i], useExclusionList, sets))
  }

  /** A part whose module exists and is not ignored: what `.Where(part => part.IsNotIgnored)` keeps. */
  predicate IsCandidate(p: Part)
  {
    p.temperatureState.Some? && p.temperatureState.value.isNotIgnored
  }

  /** Every candidate has positive limits, so its index is defined. */
  predicate Monitorable(parts: seq<Part>)
  {
    forall i :: 0 <= i < |parts| && IsCandidate(parts[i]) ==> PTS.HasPositiveLimits(parts[i].temperatureState.value)
  }

  function IndexAt(parts: seq<Part>, i: nat): real
    requires i < |parts| && IsCandidate(parts[i]) && Monitorable(parts)
  {
    PTS.Index(parts[i].temperatureState.value)
  }

  /** Which parts the `Where` keeps. */
  function Kept(parts: seq<Part>): (keep: seq<bool>)
    ensures |keep| == |parts|
    ensures forall i :: 0 <= i < |parts| ==> keep[i] == IsCandidate(parts[i])
  {
    seq(|parts|, i requires 0 <= i < |parts| => IsCandidate(parts[i]))
  }

  /** The sort keys; a part that is not kept gets a placeholder that selection ignores. */
  function Keys(parts: seq<Part>): (keys: seq<real>)
    requires Monitorable(parts)
    ensures |keys| == |parts|
    ensures forall i :: 0 <= i < |parts| && IsCandidate(parts[i]) ==> keys[i] == IndexAt(parts, i)
  {
    seq(|parts|, i requires 0 <= i < |parts| => if IsCandidate(parts[i]) then IndexAt(parts, i) else 0.0)
  }

  /** Part `i` is a candidate with the greatest index, and no earlier candidate is as great. */
  ghost predicate IsFirstMaxPart(parts: seq<Part>, i: nat)
    requires Monitorable(parts)
  {
    && i < |parts| && IsCandidate(parts[i])
    && (forall j :: 0 <= j < |parts| && IsCandidate(parts[j]) ==> IndexAt(parts, j) <= IndexAt(parts, i))
    && (forall j :: 0 <= j < i && IsCandidate(parts[j]) ==> IndexAt(parts, j) < IndexAt(parts, i))
  }

  /** `GetCriticalPartState`: among the parts' existing, non-ignored modules, the first in
      part order with the greatest index (`OrderByDescending(Index).FirstOrDefault()`), or
      null when there is none. */
  function GetCriticalPartState(parts: seq<Part>): (r: Option<CriticalPart>)
    requires Monitorable(parts)
    ensures r.None? <==> forall j :: 0 <= j < |parts| ==> !IsCandidate(parts[j])
    ensures r.Some? ==> PTS.HasPositiveLimits(r.value.state)
    ensures r.Some? ==>
              exists i: nat :: IsFirstMaxPart(parts, i)
                && r.value == CriticalPart(parts[i].ref, parts[i].temperatureState.value)
  {
    var keep := Kept(parts);
    var keys := Keys(parts);
    match Selection.FirstKeptMax(keys, keep)
    case None => None
    case Some(i) =>
      assert IsFirstMaxPart(parts, i);
      Some(CriticalPart(parts[i].ref, parts[i].temperatureState.value))
  }

  /** A part that had no module contributes no state on the frame the module is added:
      selecting after attaching gives the same result as before. */
  lemma AttachingAddsNoCandidate(parts: seq<Part>)
    requires Monitorable(parts)
    ensures Monitorable(AttachMissing(parts))
    ensures GetCriticalPartState(AttachMissing(parts)) == GetCriticalPartState(parts)
  {
    var attached := AttachMissing(parts);
    assert forall j :: 0 <= j < |parts| && IsCandidate(attached[j]) ==> attached[j] == parts[j];
    assert Kept(attached) == Kept(parts);
    Selection.FirstKeptMaxIgnoresDropped(Keys(attached), Keys(parts), Kept(parts));
  }

  /** The critical index handed to the gate; `None` without a critical part. */
  function CriticalIndex(critical: Option<CriticalPart>): (r: Option<real>)
    requires critical.Some? ==> PTS.HasPositiveLimits(critical.value.state)
    ensures r.Some? <==> critical.Some?
    ensures r.Some? ==> r.value == PTS.Index(critical.value.state)
  {
    match critical
    case None => None
    case Some(c) => Some(PTS.Index(c.state))
  }

  /** The part handed to the highlighter: the critical part when highlighting is on and
      its index is above the showing threshold, or above the hiding threshold while a part
      is already highlighted; null otherwise. */
  function HighlightTarget(settings: RootSettings.Settings, critical: Option<CriticalPart>,
                           isThereHighlightedPart: bool): (r: Option<PartRef>)
    requires critical.Some? ==> PTS.HasPositiveLimits(critical.value.state)
    ensures r.Some? <==>
              settings.highlightCriticalPart && critical.Some?
              && ((isThereHighlightedPart && PTS.Index(critical.value.state) > settings.gaugeHidingThreshold)
                  || PTS.Index(critical.value.state) > settings.gaugeShowingThreshold)
    ensures r.Some? ==> r.value == critical.value.part
  {
    match critical
    case None => None
    case Some(c) =>
      var index := PTS.Index(c.state);
      if settings.highlightCriticalPart
         && ((isThereHighlightedPart && index > settings.gaugeHidingThreshold) || index > settings.gaugeShowingThreshold)
      then Some(c.part) else None
  }

  /** Highlighting has the same hysteresis as the gauge: with ordered thresholds and an index
      strictly between them, a highlighted part stays highlighted and an unhighlighted one
      stays unhighlighted. */
  lemma HighlightHysteresis(settings: RootSettings.Settings, critical: CriticalPart, isThereHighlightedPart: bool)
    requires RootSettings.ThresholdsOrdered(settings) && settings.highlightCriticalPart
    requires PTS.HasPositiveLimits(critical.state)
    requires settings.gaugeHidingThreshold < PTS.Index(critical.state) <= settings.gaugeShowingThreshold
    ensures HighlightTarget(settings, Some(critical), isThereHighlightedPart).Some? == isThereHighlightedPart
  {
  }

  /** Whatever was highlighted before, a part above the showing threshold is highlighted. */
  lemma HotPartIsHighlighted(settings: RootSettings.Settings, critical: CriticalPart, isThereHighlightedPart: bool)
    requires settings.highlightCriticalPart && PTS.HasPositiveLimits(critical.state)
    requires PTS.Index(critical.state) > settings.gaugeShowingThreshold
    ensures HighlightTarget(settings, Some(critical), isThereHighlightedPart) == Some(critical.part)
  {
  }

  /** What one frame produces: the add-on state, the vessel's parts, the highlight calls. */
  datatype Frame = Frame(flight: Flight, parts: Option<seq<Part>>, actions: seq<HighlightAction>)

  /** The parts as selection sees them: refreshed first when the exclusion list changed. */
  function PartsForSelection(f: Flight, parts: seq<Part>, sets: PTS.ExclusionSets): (r: seq<Part>)
    ensures |r| == |parts|
    ensures !f.exclusionListChanged ==> r == parts
    ensures f.exclusionListChanged ==> r == UpdateExcludedParts(parts, f.settings.useExclusionList, sets)
  {
    if f.exclusionListChanged then UpdateExcludedParts(parts, f.settings.useExclusionList, sets) else parts
  }

  /** The precondition of a frame: every module that will be a candidate after the optional
      refresh has positive limits. */
  predicate FrameMonitorable(f: Flight, parts: seq<Part>, sets: PTS.ExclusionSets)
  {
    Monitorable(PartsForSelection(f, parts, sets))
  }

  /** `Update`: nothing without an active vessel. Otherwise the exclusion flag is cleared
      and the statuses refreshed if it was set, the critical state is selected and stored,
      the gauge is shown or hidden by the gate on `IsLogicallyVisible` with
      `AlwaysShowGauge` as override, and the highlighter is given the highlight target.
      `time` and `warpRate` are the universal time and warp rate the highlighter reads. */
  function Update(f: Flight, vessel: Option<seq<Part>>, sets: PTS.ExclusionSets, time: real, warpRate: real)
    : (r: Frame)
    requires RootHighlighter.Valid(f.highlighter)
    requires vessel.Some? ==> FrameMonitorable(f, vessel.value, sets)
    ensures vessel.None? ==> r == Frame(f, None, [])
    ensures vessel.Some? ==>
              var selected := PartsForSelection(f, vessel.value, sets);
              var critical := GetCriticalPartState(selected);
              && r.parts == Some(AttachMissing(selected))
              && r.flight.settings == f.settings
              && !r.flight.exclusionListChanged
              && r.flight.criticalPartState == critical
              && r.flight.gaugeWindow == f.gaugeWindow.(isLogicallyVisible := GaugeGate.NextVisible(
                   f.gaugeWindow.isLogicallyVisible, CriticalIndex(critical),
                   f.settings.gaugeShowingThreshold, f.settings.gaugeHidingThreshold, f.settings.alwaysShowGauge))
              && (r.flight.highlighter, r.actions) == RootHighlighter.SetHighlightedPart(
                   f.highlighter, HighlightTarget(f.settings, critical, f.highlighter.isThereHighlightedPart),
                   time, warpRate)
  {
    match vessel
    case None => Frame(f, None, [])
    case Some(parts) =>
      var selected := PartsForSelection(f, parts, sets);
      var critical := GetCriticalPartState(selected);
      var window := if GaugeGate.ShowsGauge(f.gaugeWindow.isLogicallyVisible, CriticalIndex(critical),
                                            f.settings.gaugeShowingThreshold, f.settings.alwaysShowGauge)
                    then RootWindow.Show(f.gaugeWindow)
                    else if GaugeGate.HidesGauge(f.gaugeWindow.isLogicallyVisible, CriticalIndex(critical),
                                                 f.settings.gaugeHidingThreshold, f.settings.alwaysShowGauge)
                    then RootWindow.Hide(f.gaugeWindow)
                    else f.gaugeWindow;
      var target := HighlightTarget(f.settings, critical, f.highlighter.isThereHighlightedPart);
      var (highlighter, actions) := RootHighlighter.SetHighlightedPart(f.highlighter, target, time, warpRate);
      Frame(f.(exclusionListChanged := false, criticalPartState := critical,
               gaugeWindow := window, highlighter := highlighter),
            Some(AttachMissing(selected)), actions)
  }

  /** After a frame with a vessel, every part carries a module, and the modules that existed
      are unchanged unless the exclusion list changed, in which case exactly their status
      was recomputed. */
  lemma UpdateAttachesModules(f: Flight, parts: seq<Part>, sets: PTS.ExclusionSets, time: real, warpRate: real)
    requires RootHighlighter.Valid(f.highlighter) && FrameMonitorable(f, parts, sets)
    ensures var out := Update(f, Some(parts), sets, time, warpRate).parts.value;
            && |out| == |parts|
            && (forall i :: 0 <= i < |parts| ==> out[i].temperatureState.Some? && out[i].ref == parts[i].ref)
            && (forall i :: 0 <= i < |parts| && parts[i].temperatureState.None? ==> out[i].temperatureState == Some(PTS.Fresh))
            && (forall i :: 0 <= i < |parts| && parts[i].temperatureState.Some? ==>
                  out[i].temperatureState.value == if f.exclusionListChanged
                    then PTS.UpdateExclusionStatus(parts[i].temperatureState.value, f.settings.useExclusionList, sets, parts[i].data)
                    else parts[i].temperatureState.value)
  {
  }

  /** A frame with no monitored module stores no critical state, hides a visible gauge and
      clears the highlight. */
  lemma NoCandidateHidesGauge(f: Flight, parts: seq<Part>, sets: PTS.ExclusionSets, time: real, warpRate: real)
    requires RootHighlighter.Valid(f.highlighter) && !f.exclusionListChanged
    requires forall j :: 0 <= j < |parts| ==> !IsCandidate(parts[j])
    ensures var r := Update(f, Some(parts), sets, time, warpRate);
            && r.flight.criticalPartState.None?
            && !r.flight.gaugeWindow.isLogicallyVisible
            && !r.flight.highlighter.isThereHighlightedPart
  {
  }
}

=== FILE: root_highlighter.dfy ===
/** Part highlighting of the root generation (CriticalTemperatureGauge/Highlighter.cs):
    the highlighted part flashes through the three colours, one step per flash period of
    universal time scaled by the time-warp rate. */
module RootHighlighter {
  import opened Wrappers
  import opened Host

  /** `FlashPeriod`, in seconds of universal time at warp rate 1. */
  const FlashPeriod: real := 0.166

  datatype Highlighter = Highlighter(
    lastColorChangeTime: real,
    currentHighlightColor: nat,
    previousHighlightedPart: Option<PartRef>,
    isThereHighlightedPart: bool)

  const Initial: Highlighter := Highlighter(0.0, 0, None, false)

  /** The colour index always addresses `HighlightColors`. */
  predicate Valid(h: Highlighter)
  {
    h.currentHighlightColor < |HighlightColors|
  }

  /** `SetHighlightedPart(part)` followed by its `SetPartHighlight(part)`. `time` is
      `Planetarium.GetUniversalTime()` and `warpRate` is `TimeWarp.CurrentRate`, both read
      only when `part` is not null. The result lists the highlight calls made on parts. */
  function SetHighlightedPart(h: Highlighter, part: Option<PartRef>, time: real, warpRate: real)
    : (r: (Highlighter, seq<HighlightAction>))
    requires Valid(h)
    ensures Valid(r.0)
    ensures r.0.isThereHighlightedPart == part.Some?
    ensures r.0.previousHighlightedPart == part
    // the previous part is reset exactly when the part changes, and before the new one is lit
    ensures forall p: PartRef :: ResetHighlight(p) in r.1 <==> part != h.previousHighlightedPart && h.previousHighlightedPart == Some(p)
    ensures forall q: PartRef, c: Colour :: ApplyHighlight(q, c) in r.1 <==>
              part == Some(q) && c == HighlightColors[h.currentHighlightColor]
    ensures |r.1| <= 2 && (|r.1| == 2 ==> r.1[0].ResetHighlight? && r.1[1].ApplyHighlight?)
    // the colour advances by one step, only for a part and only after a flash period
    ensures var advanced := part.Some? && time - h.lastColorChangeTime > FlashPeriod * warpRate;
            && (advanced ==> r.0.currentHighlightColor == (h.currentHighlightColor + 1) % |HighlightColors|
                             && r.0.lastColorChangeTime == time)
            && (!advanced ==> r.0.currentHighlightColor == h.currentHighlightColor
                              && r.0.lastColorChangeTime == h.lastColorChangeTime)
  {
    var resets := if part != h.previousHighlightedPart && h.previousHighlightedPart.Some?
                  then [ResetHighlight(h.previousHighlightedPart.value)] else [];
    var h1 := h.(isThereHighlightedPart := part.Some?, previousHighlightedPart := part);
    match part
    case None => (h1, resets)
    case Some(p) =>
      var lit := [ApplyHighlight(p, HighlightColors[h.currentHighlightColor])];
      if time - h.lastColorChangeTime > FlashPeriod * warpRate then
        (h1.(currentHighlightColor := (h.currentHighlightColor + 1) % |HighlightColors|,
             lastColorChangeTime := time), resets + lit)
      else (h1, resets + lit)
  }

  /** An advance always moves to a different colour, so the colour index changes exactly
      when the last-change time is rewritten. */
  lemma ColourChangesWithTime(h: Highlighter, part: Option<PartRef>, time: real, warpRate: real)
    requires Valid(h) && time != h.lastColorChangeTime
    ensures var r := SetHighlightedPart(h, part, time, warpRate).0;
            r.currentHighlightColor != h.currentHighlightColor <==> r.lastColorChangeTime != h.lastColorChangeTime
  {
  }
}

=== FILE: root_part_temperature_state.dfy ===
/** The `PartTemperatureState` part module of the root generation
    (CriticalTemperatureGauge/PartTemperatureState.cs): each part carries one, which samples
    the part's temperatures every physics tick, filters the rates, and fills the two part-menu
    fields. */
module RootPartTemperatureState {
  import opened Wrappers
  import Thermal
  import RootSettings

  /** What the module reads from its KSP `part`: `partInfo.name`, `partInfo.title`, the
      names of all modules on the part, the two limits and the two temperatures. */
  datatype PartData = PartData(
    name: string,
    title: string,
    moduleNames: seq<string>,
    maxTemp: real,
    skinMaxTemp: real,
    temperature: real,
    skinTemperature: real)

  /** `Settings.ExcludedNames` and `Settings.ExcludedModules`, which are read here but
      built elsewhere; they are taken as given. */
  datatype ExclusionSets = ExclusionSets(excludedNames: set<string>, excludedModules: set<string>)

  datatype PartTemperatureState = PartTemperatureState(
    time: real,
    title: string,
    coreTemperatureLimit: real,
    skinTemperatureLimit: real,
    coreTemperature: real,
    skinTemperature: real,
    coreTemperatureRate: real,
    skinTemperatureRate: real,
    isNotIgnored: bool,
    coreTemperatureMenuLabel: Option<string>,
    skinTemperatureMenuLabel: Option<string>,
    coreTemperatureFieldActive: bool,
    skinTemperatureFieldActive: bool)

  /** A module just added to a part, before `InitValues` has run: numbers at 0, not yet
      marked as monitored, labels null, and both fields declared `guiActive = true`. */
  const Fresh: PartTemperatureState :=
    PartTemperatureState(0.0, "", 0.0, 0.0, 0.0, 0.0, 0.0, 0.0, false, None, None, true, true)

  predicate HasPositiveLimits(s: PartTemperatureState)
  {
    s.coreTemperatureLimit > 0.0 && s.skinTemperatureLimit > 0.0
  }

  predicate IsSkinCritical(s: PartTemperatureState)
    requires HasPositiveLimits(s)
  {
    Thermal.SkinCritical(s.coreTemperature, s.coreTemperatureLimit, s.skinTemperature, s.skinTemperatureLimit)
  }

  function CriticalTemperatureLimit(s: PartTemperatureState): real
    requires HasPositiveLimits(s)
  {
    if IsSkinCritical(s) then s.skinTemperatureLimit else s.coreTemperatureLimit
  }

  function CriticalTemperature(s: PartTemperatureState): real
    requires HasPositiveLimits(s)
  {
    if IsSkinCritical(s) then s.skinTemperature else s.coreTemperature
  }

  function CriticalTemperatureRate(s: PartTemperatureState): real
    requires HasPositiveLimits(s)
  {
    if IsSkinCritical(s) then s.skinTemperatureRate else s.coreTemperatureRate
  }

  function Index(s: PartTemperatureState): real
    requires HasPositiveLimits(s)
  {
    Thermal.Index(s.coreTemperature, s.coreTemperatureLimit, s.skinTemperature, s.skinTemperatureLimit)
  }

  /** The critical side is skin only when the core ratio is strictly smaller (a tie is core);
      the index is the larger ratio and equals the critical temperature over its limit. */
  lemma CriticalSide(s: PartTemperatureState)
    requires HasPositiveLimits(s)
    ensures IsSkinCritical(s) <==> s.coreTemperature / s.coreTemperatureLimit < s.skinTemperature / s.skinTemperatureLimit
    ensures Index(s) >= s.coreTemperature / s.coreTemperatureLimit
    ensures Index(s) >= s.skinTemperature / s.skinTemperatureLimit
    ensures Index(s) == CriticalTemperature(s) / CriticalTemperatureLimit(s)
    ensures CriticalTemperatureRate(s) == (if IsSkinCritical(s) then s.skinTemperatureRate else s.coreTemperatureRate)
  {
  }

  /** Some module name on the part is in the excluded set. */
  predicate HasExcludedModule(moduleNames: seq<string>, excludedModules: set<string>)
  {
    exists i :: 0 <= i < |moduleNames| && moduleNames[i] in excludedModules
  }

  /** The part is excluded by its `partInfo.name`, its title or one of its modules. */
  predicate IsExcluded(part: PartData, sets: ExclusionSets)
  {
    part.name in sets.excludedNames || part.title in sets.excludedNames
    || HasExcludedModule(part.moduleNames, sets.excludedModules)
  }

  /** `UpdateExclusionStatus`: recomputes `IsNotIgnored`; a part that is now ignored also
      loses both menu labels and both menu fields. Nothing else is written. */
  function UpdateExclusionStatus(s: PartTemperatureState, useExclusionList: bool, sets: ExclusionSets,
                                 part: PartData): (r: PartTemperatureState)
    ensures !useExclusionList ==> r.isNotIgnored
    ensures useExclusionList ==>
              (!r.isNotIgnored <==>
                 || part.name in sets.excludedNames
                 || part.title in sets.excludedNames
                 || exists i :: 0 <= i < |part.moduleNames| && part.moduleNames[i] in sets.excludedModules)
    ensures !r.isNotIgnored ==>
              r == s.(isNotIgnored := false, coreTemperatureMenuLabel := None, skinTemperatureMenuLabel := None,
                      coreTemperatureFieldActive := false, skinTemperatureFieldActive := false)
    ensures r.isNotIgnored ==> r == s.(isNotIgnored := true)
  {
    var notIgnored := !(useExclusionList && IsExcluded(part, sets));
    if notIgnored then s.(isNotIgnored := true)
    else s.(isNotIgnored := false, coreTemperatureMenuLabel := None, skinTemperatureMenuLabel := None,
            coreTemperatureFieldActive := false, skinTemperatureFieldActive := false)
  }

  /** Excluding more names or modules never brings an ignored part back. */
  lemma ExclusionMonotonic(s: PartTemperatureState, useExclusionList: bool, sets: ExclusionSets,
                           more: ExclusionSets, part: PartData)
    requires sets.excludedNames <= more.excludedNames && sets.excludedModules <= more.excludedModules
    requires !UpdateExclusionStatus(s, useExclusionList, sets, part).isNotIgnored
    ensures !UpdateExclusionStatus(s, useExclusionList, more, part).isNotIgnored
  {
  }

  /** Recomputing the status twice is the same as once. */
  lemma ExclusionIdempotent(s: PartTemperatureState, useExclusionList: bool, sets: ExclusionSets, part: PartData)
    ensures var r := UpdateExclusionStatus(s, useExclusionList, sets, part);
            UpdateExclusionStatus(r, useExclusionList, sets, part) == r
  {
  }

  /** The assignments `InitValues` makes once the vessel is in flight with physics running
      (the waiting loop is left to the caller): the current time, the title, the limits and
      temperatures from the part, both rates 0, then the exclusion status. */
  function InitValues(s: PartTemperatureState, universalTime: real, part: PartData,
                      useExclusionList: bool, sets: ExclusionSets): (r: PartTemperatureState)
    ensures r.time == universalTime && r.title == part.title
    ensures r.coreTemperatureLimit == part.maxTemp && r.skinTemperatureLimit == part.skinMaxTemp
    ensures r.coreTemperature == part.temperature && r.skinTemperature == part.skinTemperature
    ensures r.coreTemperatureRate == 0.0 && r.skinTemperatureRate == 0.0
    ensures r.isNotIgnored <==> !(useExclusionList && IsExcluded(part, sets))
    ensures r.isNotIgnored ==>
              r.coreTemperatureMenuLabel == s.coreTemperatureMenuLabel
              && r.skinTemperatureMenuLabel == s.skinTemperatureMenuLabel
              && r.coreTemperatureFieldActive == s.coreTemperatureFieldActive
              && r.skinTemperatureFieldActive == s.skinTemperatureFieldActive
    // an ignored part has its labels cleared and its fields switched off
    ensures !r.isNotIgnored ==>
              r.coreTemperatureMenuLabel.None? && r.skinTemperatureMenuLabel.None?
              && !r.coreTemperatureFieldActive && !r.skinTemperatureFieldActive
  {
    var initialised := s.(
      time := universalTime,
      title := part.title,
      coreTemperatureLimit := part.maxTemp,
      skinTemperatureLimit := part.skinMaxTemp,
      coreTemperature := part.temperature,
      skinTemperature := part.skinTemperature,
      coreTemperatureRate := 0.0,
      skinTemperatureRate := 0.0);
    UpdateExclusionStatus(initialised, useExclusionList, sets, part)
  }

  /** `FixedUpdate` at universal time `newTime`: for a monitored part in flight with physics
      running, and only when the state is initialised (`Time > 0`) and time has advanced,
      the rates take one filter step over span `2 (newTime - Time)` and the sample is
      stored. In every other case the state is unchanged. */
  function FixedUpdate(s: PartTemperatureState, isFlight: bool, holdPhysics: bool, newTime: real,
                       part: PartData): (r: PartTemperatureState)
    ensures !s.isNotIgnored || !isFlight || holdPhysics ==> r == s
    ensures s.time <= 0.0 || newTime <= s.time ==> r == s
    ensures s.isNotIgnored && isFlight && !holdPhysics && s.time > 0.0 && newTime > s.time ==>
              var span := 2.0 * (newTime - s.time);
              && r.coreTemperatureRate == Thermal.SmoothedRate(Thermal.CoreSmoothing, s.coreTemperatureRate,
                                                               part.temperature - s.coreTemperature, span)
              && r.skinTemperatureRate == Thermal.SmoothedRate(Thermal.SkinSmoothing, s.skinTemperatureRate,
                                                               part.skinTemperature - s.skinTemperature, span)
              && r.coreTemperature == part.temperature && r.skinTemperature == part.skinTemperature
              && r.time == newTime
    ensures r == s.(coreTemperatureRate := r.coreTemperatureRate, skinTemperatureRate := r.skinTemperatureRate,
                    coreTemperature := r.coreTemperature, skinTemperature := r.skinTemperature, time := r.time)
  {
    if s.isNotIgnored && isFlight && !holdPhysics then
      var timeSpan := 2.0 * (newTime - s.time);
      if s.time > 0.0 && timeSpan > 0.0 then
        s.(coreTemperatureRate := (1.0 - Thermal.CoreSmoothing) * s.coreTemperatureRate
                                  + Thermal.CoreSmoothing * (part.temperature - s.coreTemperature) / timeSpan,
           skinTemperatureRate := (1.0 - Thermal.SkinSmoothing) * s.skinTemperatureRate
                                  + Thermal.SkinSmoothing * (part.skinTemperature - s.skinTemperature) / timeSpan,
           coreTemperature := part.temperature,
           skinTemperature := part.skinTemperature,
           time := newTime)
      else s
    else s
  }

  /** A second tick at the same universal time changes nothing, whatever the part reads. */
  lemma FixedUpdateOncePerInstant(s: PartTemperatureState, isFlight: bool, holdPhysics: bool, newTime: real,
                                  part: PartData, later: PartData)
    ensures var r := FixedUpdate(s, isFlight, holdPhysics, newTime, part);
            FixedUpdate(r, isFlight, holdPhysics, newTime, later) == r
  {
  }

  /** The first accepted tick after initialisation measures half the sampled slope for the
      core, because the filter starts from rate 0 with weight 0.5. */
  lemma FirstTickAfterInit(s: PartTemperatureState, t0: real, t1: real, useExclusionList: bool,
                           sets: ExclusionSets, part: PartData, later: PartData)
    requires 0.0 < t0 < t1
    requires !(useExclusionList && IsExcluded(part, sets))
    ensures var r := FixedUpdate(InitValues(s, t0, part, useExclusionList, sets), true, false, t1, later);
            r.coreTemperatureRate == 0.5 * ((later.temperature - part.temperature) / (2.0 * (t1 - t0)))
            && r.skinTemperatureRate == 0.1 * ((later.skinTemperature - part.skinTemperature) / (2.0 * (t1 - t0)))
  {
    var span := 2.0 * (t1 - t0);
    Thermal.SlopeFactor(0.5, later.temperature - part.temperature, span);
    Thermal.SlopeFactor(0.1, later.skinTemperature - part.skinTemperature, span);
  }

  /** What `Format.TemperatureWithRate(temperature, limit?, rate?)` prints; the root
      `Format` is not part of this model, so it is a given function. */
  type LabelFormat = (real, Option<real>, Option<real>) -> string

  function Optional(condition: bool, value: real): (r: Option<real>)
    ensures r == if condition then Some(value) else None
  {
    if condition then Some(value) else None
  }

  /** `Update` (once per frame): off the active vessel the module removes itself (`None`);
      for a monitored part in flight with physics running the menu labels are refreshed and
      shown when `PartMenuTemperature` is on, and cleared and hidden otherwise. */
  function Update(s: PartTemperatureState, isActiveVessel: bool, isFlight: bool, holdPhysics: bool,
                  settings: RootSettings.Settings, format: LabelFormat): (r: Option<PartTemperatureState>)
    ensures r.None? <==> !isActiveVessel
    ensures isActiveVessel && !(s.isNotIgnored && isFlight && !holdPhysics) ==> r == Some(s)
    ensures r.Some? ==>
              r.value == s.(coreTemperatureMenuLabel := r.value.coreTemperatureMenuLabel,
                            skinTemperatureMenuLabel := r.value.skinTemperatureMenuLabel,
                            coreTemperatureFieldActive := r.value.coreTemperatureFieldActive,
                            skinTemperatureFieldActive := r.value.skinTemperatureFieldActive)
    ensures isActiveVessel && s.isNotIgnored && isFlight && !holdPhysics ==>
              var v := r.value;
              && v.coreTemperatureFieldActive == settings.partMenuTemperature
              && v.skinTemperatureFieldActive == settings.partMenuTemperature
              && (v.coreTemperatureMenuLabel.Some? <==> settings.partMenuTemperature)
              && (v.skinTemperatureMenuLabel.Some? <==> settings.partMenuTemperature)
              && (settings.partMenuTemperature ==>
                    v.coreTemperatureMenuLabel.value ==
                      format(s.coreTemperature,
                             if settings.partMenuTemperatureLimit then Some(s.coreTemperatureLimit) else None,
                             if settings.partMenuTemperatureRate then Some(s.coreTemperatureRate) else None)
                    && v.skinTemperatureMenuLabel.value ==
                      format(s.skinTemperature,
                             if settings.partMenuTemperatureLimit then Some(s.skinTemperatureLimit) else None,
                             if settings.partMenuTemperatureRate then Some(s.skinTemperatureRate) else None))
  {
    if !isActiveVessel then None
    else if s.isNotIgnored && isFlight && !holdPhysics then
      if settings.partMenuTemperature then
        Some(s.(
          coreTemperatureMenuLabel := Some(format(s.coreTemperature,
            Optional(settings.partMenuTemperatureLimit, s.coreTemperatureLimit),
            Optional(settings.partMenuTemperatureRate, s.coreTemperatureRate))),
          skinTemperatureMenuLabel := Some(format(s.skinTemperature,
            Optional(settings.partMenuTemperatureLimit, s.skinTemperatureLimit),
            Optional(settings.partMenuTemperatureRate, s.skinTemperatureRate))),
          coreTemperatureFieldActive := true,
          skinTemperatureFieldActive := true))
      else
        Some(s.(coreTemperatureMenuLabel := None, skinTemperatureMenuLabel := None,
                coreTemperatureFieldActive := false, skinTemperatureFieldActive := false))
    else Some(s)
  }

  /** Refreshing the menu never changes the sampled data, so it commutes with the physics
      tick in the sense that the tick sees the same temperatures, rates and time. */
  lemma UpdateKeepsSample(s: PartTemperatureState, isFlight: bool, holdPhysics: bool,
                          settings: RootSettings.Settings, format: LabelFormat, newTime: real, part: PartData)
    ensures var u := Update(s, true, isFlight, holdPhysics, settings, format).value;
            var a := FixedUpdate(u, isFlight, holdPhysics, newTime, part);
            var b := FixedUpdate(s, isFlight, holdPhysics, newTime, part);
            a.time == b.time && a.coreTemperatureRate == b.coreTemperatureRate
            && a.skinTemperatureRate == b.skinTemperatureRate
            && a.coreTemperature == b.coreTemperature && a.skinTemperature == b.skinTemperature
  {
  }
}

=== FILE: root_settings.dfy ===
/** `Settings<TAddon>` of the root generation (CriticalTemperatureGauge/Settings.cs): the
    gauge thresholds, the exclusion list and the switches the monitoring logic reads. */
module RootSettings {
  import opened Wrappers
  import Text

  const DefaultGaugeShowingThreshold: real := 0.5
  const DefaultGaugeHidingThreshold: real := 0.4

  datatype Settings = Settings(
    dockGaugeWindow: bool,
    lockGaugeWindow: bool,
    alwaysShowGauge: bool,
    gaugeShowingThreshold: real,
    gaugeHidingThreshold: real,
    showTemperature: bool,
    showTemperatureLimit: bool,
    showTemperatureRate: bool,
    showCriticalPart: bool,
    highlightCriticalPart: bool,
    partMenuTemperature: bool,
    partMenuTemperatureLimit: bool,
    partMenuTemperatureRate: bool,
    useExclusionList: bool,
    exclusionList: string,
    exclusionListItems: seq<string>)

  /** A freshly constructed object: every field at its .NET default. The `null` exclusion
      string and item list are represented by empty ones; `Load` overwrites both. */
  const Blank: Settings :=
    Settings(false, false, false, 0.0, 0.0, false, false, false, false, false,
             false, false, false, false, "", [])

  /** The open interval (0, 1) the threshold setters accept. */
  predicate InUnitInterval(value: real)
  {
    value > 0.0 && value < 1.0
  }

  /** Both thresholds in (0, 1), hiding not above showing. */
  predicate ThresholdsOrdered(s: Settings)
  {
    0.0 < s.gaugeHidingThreshold <= s.gaugeShowingThreshold < 1.0
  }

  /** `GaugeShowingThreshold` setter: out-of-range values fall back to 0.5. The hiding
      threshold is not looked at. */
  function SetGaugeShowingThreshold(s: Settings, value: real): (r: Settings)
    ensures InUnitInterval(r.gaugeShowingThreshold)
    ensures InUnitInterval(value) ==> r.gaugeShowingThreshold == value
    ensures !InUnitInterval(value) ==> r.gaugeShowingThreshold == DefaultGaugeShowingThreshold
    ensures r == s.(gaugeShowingThreshold := r.gaugeShowingThreshold)
  {
    s.(gaugeShowingThreshold := if InUnitInterval(value) then value else DefaultGaugeShowingThreshold)
  }

  /** `GaugeHidingThreshold` setter: out-of-range values fall back to 0.4, and the value
      stored never exceeds the showing threshold current at the time of the write. */
  function SetGaugeHidingThreshold(s: Settings, value: real): (r: Settings)
    ensures r.gaugeHidingThreshold <= s.gaugeShowingThreshold
    ensures r.gaugeHidingThreshold < 1.0
    ensures InUnitInterval(s.gaugeShowingThreshold) ==> r.gaugeHidingThreshold > 0.0
    ensures InUnitInterval(value) && value <= s.gaugeShowingThreshold ==> r.gaugeHidingThreshold == value
    ensures !InUnitInterval(value) && DefaultGaugeHidingThreshold <= s.gaugeShowingThreshold
            ==> r.gaugeHidingThreshold == DefaultGaugeHidingThreshold
    // the stored value is the smaller of the showing threshold and the (defaulted) candidate
    ensures var c := if InUnitInterval(value) then value else DefaultGaugeHidingThreshold;
            && r.gaugeHidingThreshold <= c
            && (r.gaugeHidingThreshold == c || r.gaugeHidingThreshold == s.gaugeShowingThreshold)
    ensures r == s.(gaugeHidingThreshold := r.gaugeHidingThreshold)
  {
    var candidate := if InUnitInterval(value) then value else DefaultGaugeHidingThreshold;
    s.(gaugeHidingThreshold := if s.gaugeShowingThreshold <= candidate then s.gaugeShowingThreshold else candidate)
  }

  /** `ExclusionList` setter: the raw string is kept verbatim and the item list is re-parsed. */
  function SetExclusionList(s: Settings, value: string): (r: Settings)
    ensures r.exclusionList == value
    ensures r.exclusionListItems == Text.ParseCommaList(value)
    ensures forall i :: 0 <= i < |r.exclusionListItems| ==>
              r.exclusionListItems[i] != "" && Text.IsTrimmed(r.exclusionListItems[i])
              && ',' !in r.exclusionListItems[i]
    ensures r == s.(exclusionList := value, exclusionListItems := r.exclusionListItems)
  {
    s.(exclusionList := value, exclusionListItems := Text.ParseCommaList(value))
  }

  /** Writing the hiding threshold after a valid showing threshold leaves the pair ordered. */
  lemma HidingSetterOrders(s: Settings, value: real)
    requires InUnitInterval(s.gaugeShowingThreshold)
    ensures ThresholdsOrdered(SetGaugeHidingThreshold(s, value))
  {
  }

  /** The cap is enforced only when the hiding threshold is written: lowering the showing
      threshold afterwards leaves the hiding threshold above it. */
  lemma ShowingSetterDoesNotRecap(s: Settings)
    requires s == SetGaugeHidingThreshold(SetGaugeShowingThreshold(Blank, 0.5), 0.4)
    ensures ThresholdsOrdered(s)
    ensures SetGaugeShowingThreshold(s, 0.3).gaugeHidingThreshold == 0.4
    ensures !ThresholdsOrdered(SetGaugeShowingThreshold(s, 0.3))
  {
  }

  /** The values in the configuration file, by property name (`PluginConfiguration`). */
  datatype Stored = Stored(bools: map<string, bool>, reals: map<string, real>, strings: map<string, string>)

  /** `settings.GetValue(key, default)`. */
  function GetValue<T>(m: map<string, T>, key: string, default: T): T
  {
    if key in m then m[key] else default
  }

  /** `Load`: the object initialiser assigns the properties in declaration order, so the
      showing threshold is stored before the hiding threshold is capped against it. */
  function Load(stored: Stored): (r: Settings)
    ensures ThresholdsOrdered(r)
    ensures var showing := GetValue(stored.reals, "GaugeShowingThreshold", DefaultGaugeShowingThreshold);
            r.gaugeShowingThreshold == if InUnitInterval(showing) then showing else DefaultGaugeShowingThreshold
    // the stored (or default) hiding threshold, capped by the showing threshold loaded just before it
    ensures var hiding := GetValue(stored.reals, "GaugeHidingThreshold", DefaultGaugeHidingThreshold);
            var wanted := if InUnitInterval(hiding) then hiding else DefaultGaugeHidingThreshold;
            r.gaugeHidingThreshold == if r.gaugeShowingThreshold <= wanted then r.gaugeShowingThreshold else wanted
    ensures r.exclusionList == GetValue(stored.strings, "ExclusionList", "")
    ensures r.exclusionListItems == Text.ParseCommaList(r.exclusionList)
    ensures r.alwaysShowGauge == GetValue(stored.bools, "AlwaysShowGauge", false)
    ensures r.highlightCriticalPart == GetValue(stored.bools, "HighlightCriticalPart", true)
    ensures r.useExclusionList == GetValue(stored.bools, "UseExclusionList", false)
    ensures r.partMenuTemperature == GetValue(stored.bools, "PartMenuTemperature", true)
    ensures r.partMenuTemperatureLimit == GetValue(stored.bools, "PartMenuTemperatureLimit", true)
    ensures r.partMenuTemperatureRate == GetValue(stored.bools, "PartMenuTemperatureRate", true)
  {
    var b := stored.bools;
    var s1 := Blank.(
      dockGaugeWindow := GetValue(b, "DockGaugeWindow", true),
      lockGaugeWindow := GetValue(b, "LockGaugeWindow", true),
      alwaysShowGauge := GetValue(b, "AlwaysShowGauge", false));
    var s2 := SetGaugeShowingThreshold(s1, GetValue(stored.reals, "GaugeShowingThreshold", DefaultGaugeShowingThreshold));
    var s3 := SetGaugeHidingThreshold(s2, GetValue(stored.reals, "GaugeHidingThreshold", DefaultGaugeHidingThreshold));
    var s4 := s3.(
      showTemperature := GetValue(b, "ShowTemperature", true),
      showTemperatureLimit := GetValue(b, "ShowTemperatureLimit", true),
      showTemperatureRate := GetValue(b, "ShowTemperatureRate", true),
      showCriticalPart := GetValue(b, "ShowCriticalPart", true),
      highlightCriticalPart := GetValue(b, "HighlightCriticalPart", true),
      partMenuTemperature := GetValue(b, "PartMenuTemperature", true),
      partMenuTemperatureLimit := GetValue(b, "PartMenuTemperatureLimit", true),
      partMenuTemperatureRate := GetValue(b, "PartMenuTemperatureRate", true),
      useExclusionList := GetValue(b, "UseExclusionList", false));
    SetExclusionList(s4, GetValue(stored.strings, "ExclusionList", ""))
  }

  /** With an empty configuration file every setting takes its default. */
  lemma LoadDefaults(stored: Stored)
    requires |stored.bools| == 0 && |stored.reals| == 0 && |stored.strings| == 0
    ensures Load(stored) ==
            Settings(true, true, false, 0.5, 0.4, true, true, true, true, true,
                     true, true, true, false, "", [])
  {
    Text.ParseEmptyList();
  }

  /** Declaration order in action: a stored pair that is ordered loads unchanged, and a
      hiding threshold stored above the showing one is capped to it. */
  lemma LoadCapsHidingByLoadedShowing(stored: Stored)
    requires stored.reals == map["GaugeShowingThreshold" := 0.3, "GaugeHidingThreshold" := 0.7]
    ensures Load(stored).gaugeShowingThreshold == 0.3 && Load(stored).gaugeHidingThreshold == 0.3
    ensures var ordered := stored.(reals := map["GaugeShowingThreshold" := 0.9, "GaugeHidingThreshold" := 0.2]);
            Load(ordered).gaugeShowingThreshold == 0.9 && Load(ordered).gaugeHidingThreshold == 0.2
  {
  }

  /** Had the initialiser written the hiding threshold first, it would have been capped by
      the blank showing threshold 0 and stayed 0 whatever the file said. */
  lemma HidingFirstWouldCollapse(showing: real, hiding: real)
    ensures SetGaugeShowingThreshold(SetGaugeHidingThreshold(Blank, hiding), showing).gaugeHidingThreshold == 0.0
  {
  }
}

=== FILE: root_window.dfy ===
/** The abstract `Window` of the root generation (CriticalTemperatureGauge/Window.cs):
    a logical show/hide flag, the F2 "can show" flag and a lazily initialised rectangle. */
module RootWindow {
  import opened Wrappers
  import opened Host

  datatype Window = Window(isLogicallyVisible: bool, canShow: bool, rectangle: Option<Rect>)

  /** A new window: logically hidden, allowed to show, rectangle not yet read. */
  const Initial: Window := Window(false, true, None)

  /** `IsVisible`: visible only when both the logical flag and `CanShow` hold. */
  predicate IsVisible(w: Window)
  {
    w.canShow && w.isLogicallyVisible
  }

  function Show(w: Window): (r: Window)
    ensures r.isLogicallyVisible
    ensures IsVisible(r) == w.canShow
    ensures r == w.(isLogicallyVisible := true)
  {
    w.(isLogicallyVisible := true)
  }

  function Hide(w: Window): (r: Window)
    ensures !r.isLogicallyVisible && !IsVisible(r)
    ensures r == w.(isLogicallyVisible := false)
  {
    w.(isLogicallyVisible := false)
  }

  function Toggle(w: Window): (r: Window)
    ensures r.isLogicallyVisible != w.isLogicallyVisible
    ensures r == w.(isLogicallyVisible := r.isLogicallyVisible)
  {
    w.(isLogicallyVisible := !w.isLogicallyVisible)
  }

  /** Toggling twice restores the window. */
  lemma ToggleInvolution(w: Window)
    ensures Toggle(Toggle(w)) == w
  {
  }

  /** The `WindowRectangle` getter: the first read stores and returns `initial`
      (`InitialWindowRectangle`); later reads return the stored rectangle. */
  function GetRectangle(w: Window, initial: Rect): (r: (Rect, Window))
    ensures r.1.rectangle == Some(r.0)
    ensures w.rectangle.Some? ==> r.0 == w.rectangle.value && r.1 == w
    ensures w.rectangle.None? ==> r.0 == initial
    ensures r.1 == w.(rectangle := r.1.rectangle)
  {
    match w.rectangle
    case Some(rect) => (rect, w)
    case None => (initial, w.(rectangle := Some(initial)))
  }

  /** After the first read, the initial rectangle offered later no longer matters. */
  lemma RectangleReadOnce(w: Window, initial: Rect, later: Rect)
    ensures GetRectangle(GetRectangle(w, initial).1, later) == GetRectangle(w, initial)
  {
  }

  /** The private `WindowRectangle` setter stores the rectangle and then calls
      `OnWindowRectUpdated`, reported as the rectangle it observes. */
  function SetRectangle(w: Window, rect: Rect): (r: (Window, Option<Rect>))
    ensures r.0.rectangle == Some(rect) && r.1 == Some(rect)
    ensures r.0 == w.(rectangle := Some(rect))
  {
    (w.(rectangle := Some(rect)), Some(rect))
  }

  /** `DrawGUI`: when visible, lays the window out from its current rectangle (`layout`
      stands for `GUILayout.Window`), overrides position and size by the constant ones the
      window declares, and stores the result. When not visible nothing happens. */
  function DrawGUI(w: Window, initial: Rect, layout: Rect -> Rect,
                   constPosition: Option<Vector2>, constSize: Option<Vector2>): (r: (Window, Option<Rect>))
    ensures !IsVisible(w) ==> r == (w, None)
    ensures IsVisible(w) ==> r.1.Some? && r.0.rectangle == r.1
    ensures r.0.isLogicallyVisible == w.isLogicallyVisible && r.0.canShow == w.canShow
    ensures IsVisible(w) && constPosition.Some? ==> r.1.value.position == constPosition.value
    ensures IsVisible(w) && constSize.Some? ==> r.1.value.size == constSize.value
    ensures IsVisible(w) && constPosition.None? ==> r.1.value.position == layout(GetRectangle(w, initial).0).position
    ensures IsVisible(w) && constSize.None? ==> r.1.value.size == layout(GetRectangle(w, initial).0).size
  {
    if !IsVisible(w) then (w, None)
    else
      var (current, w1) := GetRectangle(w, initial);
      var laid := layout(current);
      SetRectangle(w1, Rect(constPosition.GetOr(laid.position), constSize.GetOr(laid.size)))
  }
}

=== FILE: selection.dfy ===
/** `OrderByDescending(key).FirstOrDefault()`: the element with the greatest key,
    the earliest one among equal keys. */
module Selection {
  import opened Wrappers

  /** Position `i` holds a greatest key and no earlier position holds one as great. */
  ghost predicate IsFirstMax(keys: seq<real>, i: nat)
  {
    && i < |keys|
    && (forall j :: 0 <= j < |keys| ==> keys[j] <= keys[i])
    && (forall j :: 0 <= j < i ==> keys[j] < keys[i])
  }

  /** The position of the first greatest key, or `None` for no keys. */
  function FirstMax(keys: seq<real>): (r: Option<nat>)
    ensures r.None? <==> |keys| == 0
    ensures r.Some? ==> IsFirstMax(keys, r.value)
  {
    if |keys| == 0 then None
    else
      var rest := FirstMax(keys[1..]);
      if rest.None? || keys[1 + rest.value] <= keys[0] then Some(0)
      else Some(1 + rest.value)
  }

  /** Selection is deterministic: at most one position is the first greatest. */
  lemma FirstMaxUnique(keys: seq<real>, i: nat, j: nat)
    requires IsFirstMax(keys, i) && IsFirstMax(keys, j)
    ensures i == j
  {
    assert keys[i] <= keys[j] && keys[j] <= keys[i];
  }

  /** Inserts position `i` into a descending list just before the first strictly smaller key,
      so that it follows every earlier position with an equal key (a stable sort step). */
  function InsertDescending(keys: seq<real>, i: nat, sorted: seq<nat>): (r: seq<nat>)
    requires i < |keys|
    requires forall k :: 0 <= k < |sorted| ==> sorted[k] < |keys|
    ensures |r| == |sorted| + 1
    ensures forall k :: 0 <= k < |r| ==> r[k] < |keys|
    ensures r[0] == (if |sorted| == 0 || keys[sorted[0]] < keys[i] then i else sorted[0])
  {
    if |sorted| == 0 || keys[sorted[0]] < keys[i] then [i] + sorted
    else [sorted[0]] + InsertDescending(keys, i, sorted[1..])
  }

  /** The positions `0 .. n-1` stably sorted by descending key, as LINQ's `OrderByDescending` does. */
  function OrderByDescending(keys: seq<real>, n: nat): (r: seq<nat>)
    requires n <= |keys|
    ensures |r| == n
    ensures forall k :: 0 <= k < |r| ==> r[k] < |keys|
  {
    if n == 0 then [] else InsertDescending(keys, n - 1, OrderByDescending(keys, n - 1))
  }

  /** Position `x` sorts before `y`: a greater key, or an equal key and an earlier position. */
  predicate Before(keys: seq<real>, x: nat, y: nat)
    requires x < |keys| && y < |keys|
  {
    keys[x] > keys[y] || (keys[x] == keys[y] && x < y)
  }

  /** Descending by key, ties in original order (which also makes the positions distinct). */
  predicate StablyDescending(keys: seq<real>, xs: seq<nat>)
  {
    && (forall k :: 0 <= k < |xs| ==> xs[k] < |keys|)
    && (forall a, b :: 0 <= a < b < |xs| ==> Before(keys, xs[a], xs[b]))
  }

  /** The positions `0 .. n-1` in order. */
  function Upto(n: nat): (r: seq<nat>)
    ensures |r| == n && forall k :: 0 <= k < n ==> r[k] == k
  {
    if n == 0 then [] else Upto(n - 1) + [n - 1]
  }

  /** A head that sorts before every element of a stably descending list extends it. */
  lemma ConsStablyDescending(keys: seq<real>, h: nat, xs: seq<nat>)
    requires h < |keys| && StablyDescending(keys, xs)
    requires forall b :: 0 <= b < |xs| ==> Before(keys, h, xs[b])
    ensures StablyDescending(keys, [h] + xs)
  {
    var r := [h] + xs;
    forall a, b | 0 <= a < b < |r|
      ensures Before(keys, r[a], r[b])
    {
      if a > 0 {
        assert r[a] == xs[a - 1] && r[b] == xs[b - 1];
      }
    }
  }

  /** A position with a key greater than the head of a stably descending list sorts before
      all of it. */
  lemma GreaterThanHead(keys: seq<real>, i: nat, sorted: seq<nat>)
    requires i < |keys| && StablyDescending(keys, sorted) && |sorted| > 0
    requires keys[sorted[0]] < keys[i]
    ensures forall b :: 0 <= b < |sorted| ==> Before(keys, i, sorted[b])
  {
    forall b | 0 < b < |sorted|
      ensures keys[sorted[b]] <= keys[sorted[0]]
    {
      assert Before(keys, sorted[0], sorted[b]);
    }
  }

  /** The head of a stably descending list sorts before every later element of it, and
      before `i` when `i` is later and not greater. */
  lemma HeadBeforeInserted(keys: seq<real>, i: nat, sorted: seq<nat>, rest: seq<nat>)
    requires i < |keys| && StablyDescending(keys, sorted) && |sorted| > 0
    requires sorted[0] < i && keys[i] <= keys[sorted[0]]
    requires multiset(rest) == multiset(sorted[1..]) + multiset{i}
    requires forall k :: 0 <= k < |rest| ==> rest[k] < |keys|
    ensures forall b :: 0 <= b < |rest| ==> Before(keys, sorted[0], rest[b])
  {
    forall b | 0 <= b < |rest|
      ensures Before(keys, sorted[0], rest[b])
    {
      var x := rest[b];
      assert x in multiset(rest);
      if x != i {
        assert x in multiset(sorted[1..]);
        var k :| 0 <= k < |sorted[1..]| && sorted[1..][k] == x;
        assert Before(keys, sorted[0], sorted[1 + k]);
      }
    }
  }

  /** Dropping the head keeps a list stably descending. */
  lemma TailStablyDescending(keys: seq<real>, sorted: seq<nat>)
    requires StablyDescending(keys, sorted) && |sorted| > 0
    ensures StablyDescending(keys, sorted[1..])
  {
    var tail := sorted[1..];
    forall a, b | 0 <= a < b < |tail|
      ensures Before(keys, tail[a], tail[b])
    {
      assert tail[a] == sorted[a + 1] && tail[b] == sorted[b + 1];
    }
  }

  /** Inserting a position later than every sorted one keeps the order stable and adds
      exactly that position. */
  lemma {:induction false} InsertKeepsStableOrder(keys: seq<real>, i: nat, sorted: seq<nat>)
    requires i < |keys| && StablyDescending(keys, sorted)
    requires forall k :: 0 <= k < |sorted| ==> sorted[k] < i
    ensures StablyDescending(keys, InsertDescending(keys, i, sorted))
    ensures multiset(InsertDescending(keys, i, sorted)) == multiset(sorted) + multiset{i}
    decreases |sorted|
  {
    if |sorted| == 0 {
      ConsStablyDescending(keys, i, sorted);
    } else if keys[sorted[0]] < keys[i] {
      GreaterThanHead(keys, i, sorted);
      ConsStablyDescending(keys, i, sorted);
    } else {
      var tail := sorted[1..];
      TailStablyDescending(keys, sorted);
      InsertKeepsStableOrder(keys, i, tail);
      var rest := InsertDescending(keys, i, tail);
      HeadBeforeInserted(keys, i, sorted, rest);
      ConsStablyDescending(keys, sorted[0], rest);
      assert sorted == [sorted[0]] + tail;
    }
  }

  /** A rearrangement of `0 .. m-1` holds only positions below `m`. */
  lemma PermutationBounded(xs: seq<nat>, m: nat)
    requires multiset(xs) == multiset(Upto(m))
    ensures forall k :: 0 <= k < |xs| ==> xs[k] < m
  {
    forall k | 0 <= k < |xs|
      ensures xs[k] < m
    {
      assert xs[k] in multiset(Upto(m));
    }
  }

  /** One insertion step of the sort keeps it a stable permutation. */
  lemma SortStep(keys: seq<real>, n: nat, sorted: seq<nat>)
    requires 0 < n <= |keys| && sorted == OrderByDescending(keys, n - 1)
    requires multiset(sorted) == multiset(Upto(n - 1)) && StablyDescending(keys, sorted)
    ensures multiset(OrderByDescending(keys, n)) == multiset(Upto(n))
    ensures StablyDescending(keys, OrderByDescending(keys, n))
  {
    PermutationBounded(sorted, n - 1);
    InsertKeepsStableOrder(keys, n - 1, sorted);
    assert Upto(n) == Upto(n - 1) + [n - 1];
  }

  /** `OrderByDescending` is a stable descending sort: a permutation of `0 .. n-1`, ordered
      by descending key, equal keys in their original order. */
  lemma {:induction false} OrderByDescendingSorts(keys: seq<real>, n: nat)
    requires n <= |keys|
    ensures multiset(OrderByDescending(keys, n)) == multiset(Upto(n))
    ensures StablyDescending(keys, OrderByDescending(keys, n))
  {
    if n > 0 {
      OrderByDescendingSorts(keys, n - 1);
      SortStep(keys, n, OrderByDescending(keys, n - 1));
    }
  }

  function FirstOrDefault(xs: seq<nat>): Option<nat>
  {
    if |xs| == 0 then None else Some(xs[0])
  }

  /** The head of the stable descending sort of the first `n` keys is their first greatest key. */
  lemma {:induction false} SortHeadIsFirstMax(keys: seq<real>, n: nat)
    requires 0 < n <= |keys|
    ensures IsFirstMax(keys[..n], OrderByDescending(keys, n)[0])
  {
    if n > 1 {
      SortHeadIsFirstMax(keys, n - 1);
      assert keys[..n - 1] == keys[..n][..n - 1];
    }
  }

  /** `FirstMax` is exactly `OrderByDescending(key).FirstOrDefault()`. */
  lemma FirstMaxIsHeadOfStableSort(keys: seq<real>)
    ensures FirstMax(keys) == FirstOrDefault(OrderByDescending(keys, |keys|))
  {
    if |keys| > 0 {
      SortHeadIsFirstMax(keys, |keys|);
      assert keys[..|keys|] == keys;
      FirstMaxUnique(keys, FirstMax(keys).value, OrderByDescending(keys, |keys|)[0]);
    }
  }

  /** The kept positions below `n`, in increasing order. */
  function KeptPositions(keep: seq<bool>, n: nat): (r: seq<nat>)
    requires n <= |keep|
    ensures forall k :: 0 <= k < |r| ==> r[k] < n && keep[r[k]]
    ensures forall k, k' :: 0 <= k < k' < |r| ==> r[k] < r[k']
    ensures forall j :: 0 <= j < n && keep[j] ==> j in r
  {
    if n == 0 then []
    else
      var r := KeptPositions(keep, n - 1);
      if keep[n - 1] then r + [n - 1] else r
  }

  /** Position `i` is kept, holds a greatest kept key, and no earlier kept position holds
      one as great. */
  ghost predicate IsFirstKeptMax(keys: seq<real>, keep: seq<bool>, i: nat)
  {
    && i < |keys| && i < |keep| && keep[i]
    && (forall j :: 0 <= j < |keys| && j < |keep| && keep[j] ==> keys[j] <= keys[i])
    && (forall j :: 0 <= j < i && keep[j] ==> keys[j] < keys[i])
  }

  /** `.Where(keep).OrderByDescending(key).FirstOrDefault()`, as a position into the
      unfiltered sequence. */
  function FirstKeptMax(keys: seq<real>, keep: seq<bool>): (r: Option<nat>)
    requires |keys| == |keep|
    ensures r.None? <==> forall j :: 0 <= j < |keep| ==> !keep[j]
    ensures r.Some? ==> IsFirstKeptMax(keys, keep, r.value)
  {
    var positions := KeptPositions(keep, |keep|);
    var kept := seq(|positions|, k requires 0 <= k < |positions| => keys[positions[k]]);
    match FirstMax(kept)
    case None => None
    case Some(k) =>
      FirstMaxOfKept(keys, keep, positions, kept, k);
      Some(positions[k])
  }

  /** The first greatest key of the filtered sequence sits, in the unfiltered sequence, at
      the first greatest kept position. */
  lemma FirstMaxOfKept(keys: seq<real>, keep: seq<bool>, positions: seq<nat>, kept: seq<real>, k: nat)
    requires |keys| == |keep|
    requires forall m :: 0 <= m < |positions| ==> positions[m] < |keep| && keep[positions[m]]
    requires forall m, m' :: 0 <= m < m' < |positions| ==> positions[m] < positions[m']
    requires forall j :: 0 <= j < |keep| && keep[j] ==> j in positions
    requires |kept| == |positions| && forall m :: 0 <= m < |positions| ==> kept[m] == keys[positions[m]]
    requires IsFirstMax(kept, k)
    ensures IsFirstKeptMax(keys, keep, positions[k])
  {
    var i := positions[k];
    forall j | 0 <= j < |keys| && keep[j]
      ensures keys[j] <= keys[i]
    {
      var m :| 0 <= m < |positions| && positions[m] == j;
      assert kept[m] <= kept[k];
    }
    forall j | 0 <= j < i && keep[j]
      ensures keys[j] < keys[i]
    {
      var m :| 0 <= m < |positions| && positions[m] == j;
      assert m < k;
      assert kept[m] < kept[k];
    }
  }

  /** With nothing filtered out, the filtered selection is the plain one. */
  lemma FirstKeptMaxOfAll(keys: seq<real>, keep: seq<bool>)
    requires |keys| == |keep| && forall j :: 0 <= j < |keep| ==> keep[j]
    ensures FirstKeptMax(keys, keep) == FirstMax(keys)
  {
    var r := FirstKeptMax(keys, keep);
    if r.Some? {
      FirstMaxUnique(keys, r.value, FirstMax(keys).value);
    }
  }

  /** Only the keys of kept positions matter. */
  lemma FirstKeptMaxIgnoresDropped(keys: seq<real>, keys': seq<real>, keep: seq<bool>)
    requires |keys| == |keys'| == |keep|
    requires forall j :: 0 <= j < |keep| && keep[j] ==> keys[j] == keys'[j]
    ensures FirstKeptMax(keys, keep) == FirstKeptMax(keys', keep)
  {
    var a := FirstKeptMax(keys, keep);
    var b := FirstKeptMax(keys', keep);
    if a.Some? {
      assert keys[a.value] <= keys[b.value] && keys[b.value] <= keys[a.value];
    }
  }
}

=== FILE: src_extensions.dfy ===
/** Number formatting helpers of the `src` generation (src/CriticalTemperatureGauge/Extensions.cs):
    fixed-point numbers right-aligned with figure spaces. */
module SrcExtensions {
  import opened Host
  import opened Text

  /** The field width for `intPlaces` integer digits and `fracPlaces` decimals, counting
      the decimal point when there are decimals. */
  function FieldWidth(intPlaces: int, fracPlaces: nat): (w: int)
    ensures fracPlaces == 0 ==> w == intPlaces
    ensures fracPlaces > 0 ==> w == intPlaces + fracPlaces + 1
  {
    intPlaces + fracPlaces + (if fracPlaces > 0 then 1 else 0)
  }

  /** `value.ToUnsignedString(intPlaces, fracPlaces)`: the number `ToString("F<fracPlaces>")`
      right-aligned in the field. */
  function ToUnsignedString(fmt: NumberFormat, value: real, intPlaces: int, fracPlaces: nat): (r: string)
    ensures var n := fmt(value, fracPlaces);
            && |r| == (if FieldWidth(intPlaces, fracPlaces) > |n| then FieldWidth(intPlaces, fracPlaces) else |n|)
            && r[|r| - |n|..] == n
            && forall i :: 0 <= i < |r| - |n| ==> r[i] == FigureSpace
  {
    var numberString := fmt(value, fracPlaces);
    Padding(FieldWidth(intPlaces, fracPlaces), numberString) + numberString
  }

  /** `value.ToSignedString(intPlaces, fracPlaces)`: a minus sign for negative values and a
      plus sign otherwise (zero included), then the digits of `|value|`; the sign is not
      counted in the field width. */
  function ToSignedString(fmt: NumberFormat, value: real, intPlaces: int, fracPlaces: nat): (r: string)
    ensures var n := fmt(if value < 0.0 then -value else value, fracPlaces);
            var pad := |r| - |n| - 1;
            && |r| == 1 + (if FieldWidth(intPlaces, fracPlaces) > |n| then FieldWidth(intPlaces, fracPlaces) else |n|)
            && r[pad + 1..] == n
            && r[pad..pad + 1] == (if value < 0.0 then MinusSign else "+")
            && forall i :: 0 <= i < pad ==> r[i] == FigureSpace
  {
    var numberString := fmt(if value < 0.0 then -value else value, fracPlaces);
    var signString := if value < 0.0 then MinusSign else "+";
    Padding(FieldWidth(intPlaces, fracPlaces), numberString) + signString + numberString
  }

  /** A value and its negation print the same padding and digits and differ only in the sign. */
  lemma SignedDigitsIgnoreSign(fmt: NumberFormat, value: real, intPlaces: int, fracPlaces: nat)
    requires value > 0.0
    ensures var p := ToSignedString(fmt, value, intPlaces, fracPlaces);
            var pad := |p| - |fmt(value, fracPlaces)| - 1;
            && 0 <= pad < |p|
            && p[pad] == '+'
            && ToSignedString(fmt, -value, intPlaces, fracPlaces) == p[..pad] + MinusSign + p[pad + 1..]
  {
    assert -(-value) == value;
  }
}

=== FILE: src_flight.dfy ===
/** The per-frame driver of the `src` generation (src/CriticalTemperatureGauge/Flight.cs):
    a fresh `PartState` snapshot of every monitored part, selection of the critical one,
    hand-over of the smoothed rates from the previous frame's critical state, and the gauge
    gate on `IsVisible`. */
module SrcFlight {
  import opened Wrappers
  import opened Host
  import opened Text
  import Selection
  import GaugeGate
  import SrcSettings
  import SrcWindow
  import PS = SrcPartState
  import SrcPartTemperatureState
  import Thermal

  /** A vessel part as `Flight` reads it. */
  datatype Part = Part(
    flightId: UInt32,
    name: string,
    moduleNames: seq<string>,
    maxTemp: real,
    skinMaxTemp: real,
    temperature: real,
    skinTemperature: real)

  /** The add-on's state between frames: the gauge window (null before `Start`) and
      `Static.CriticalPartState`. */
  datatype Flight = Flight(
    settings: SrcSettings.Settings,
    gaugeWindow: Option<SrcWindow.Window>,
    criticalPartState: Option<PS.PartState>)

  /** Some listed module name is on the part. */
  predicate AnyListed(items: seq<string>, moduleNames: seq<string>)
  {
    exists k :: 0 <= k < |items| && items[k] in moduleNames
  }

  /** `IsPartNotIgnored`: the part is ignored only when the exclusion list is in use and one
      of its items names a module of the part. */
  function IsPartNotIgnored(settings: SrcSettings.Settings, part: Part): (r: bool)
    ensures !settings.useExclusionList ==> r
    ensures |settings.exclusionListItems| == 0 ==> r
    ensures settings.useExclusionList ==>
              (!r <==> exists k :: 0 <= k < |settings.exclusionListItems|
                                   && settings.exclusionListItems[k] in part.moduleNames)
  {
    !(settings.useExclusionList && AnyListed(settings.exclusionListItems, part.moduleNames))
  }

  /** `GetPartTitle`, written with a `title` variable: the catalogue title of the short name
      when it is non-empty, the short name otherwise. */
  function GetPartTitle(partName: string, catalogue: SrcPartTemperatureState.PartCatalogue): string
  {
    var indexOfWhitespace := IndexOf(partName, ' ');
    var name := if indexOfWhitespace >= 0 then partName[..indexOfWhitespace] else partName;
    var title :=
      if name in catalogue && catalogue[name].Some? then
        var found := catalogue[name].value;
        if found == "" then name else found
      else name;
    title
  }

  /** The flight driver and the part module compute the same title. */
  lemma PartTitlesAgree(partName: string, catalogue: SrcPartTemperatureState.PartCatalogue)
    ensures GetPartTitle(partName, catalogue) == SrcPartTemperatureState.GetPartTitle(partName, catalogue)
  {
  }

  /** `GetPartState`: a snapshot at universal time `now` with the part's identity, title,
      limits and temperatures; the rates are 0, `Part` is left null and the index is not yet
      read. */
  function GetPartState(part: Part, now: real, catalogue: SrcPartTemperatureState.PartCatalogue)
    : (r: PS.PartState)
    ensures r.time == now && r.id == part.flightId && r.part.None?
    ensures r.name == SrcPartTemperatureState.GetPartTitle(part.name, catalogue)
    ensures r.coreTemperatureLimit == part.maxTemp && r.skinTemperatureLimit == part.skinMaxTemp
    ensures r.coreTemperature == part.temperature && r.skinTemperature == part.skinTemperature
    ensures r.coreTemperatureRate == 0.0 && r.skinTemperatureRate == 0.0
    ensures r.cachedIndex.None?
  {
    PartTitlesAgree(part.name, catalogue);
    PS.PartState(now, None, part.flightId, GetPartTitle(part.name, catalogue),
                 part.maxTemp, part.skinMaxTemp, part.temperature, part.skinTemperature, 0.0, 0.0, None)
  }

  /** Every part that is not ignored has positive limits, so its index is defined. */
  predicate Monitorable(settings: SrcSettings.Settings, parts: seq<Part>)
  {
    forall i :: 0 <= i < |parts| && IsPartNotIgnored(settings, parts[i]) ==>
      parts[i].maxTemp > 0.0 && parts[i].skinMaxTemp > 0.0
  }

  /** The index of part `i`'s snapshot. */
  function IndexOfPart(parts: seq<Part>, i: nat): real
    requires i < |parts| && parts[i].maxTemp > 0.0 && parts[i].skinMaxTemp > 0.0
  {
    Thermal.Index(parts[i].temperature, parts[i].maxTemp, parts[i].skinTemperature, parts[i].skinMaxTemp)
  }

  function Kept(settings: SrcSettings.Settings, parts: seq<Part>): (keep: seq<bool>)
    ensures |keep| == |parts|
    ensures forall i :: 0 <= i < |parts| ==> keep[i] == IsPartNotIgnored(settings, parts[i])
  {
    seq(|parts|, i requires 0 <= i < |parts| => IsPartNotIgnored(settings, parts[i]))
  }

  function Keys(settings: SrcSettings.Settings, parts: seq<Part>): (keys: seq<real>)
    requires Monitorable(settings, parts)
    ensures |keys| == |parts|
    ensures forall i :: 0 <= i < |parts| && IsPartNotIgnored(settings, parts[i]) ==> keys[i] == IndexOfPart(parts, i)
  {
    seq(|parts|, i requires 0 <= i < |parts| =>
      if IsPartNotIgnored(settings, parts[i]) then IndexOfPart(parts, i) else 0.0)
  }

  /** Part `i` is not ignored, has the greatest index, and no earlier such part is as great. */
  ghost predicate IsFirstMaxPart(settings: SrcSettings.Settings, parts: seq<Part>, i: nat)
    requires Monitorable(settings, parts)
  {
    && i < |parts| && IsPartNotIgnored(settings, parts[i])
    && (forall j :: 0 <= j < |parts| && IsPartNotIgnored(settings, parts[j]) ==> IndexOfPart(parts, j) <= IndexOfPart(parts, i))
    && (forall j :: 0 <= j < i && IsPartNotIgnored(settings, parts[j]) ==> IndexOfPart(parts, j) < IndexOfPart(parts, i))
  }

  /** `GetCriticalPartState`: ignored parts are dropped first, then the snapshot of the first
      remaining part with the greatest index is returned, its index already cached by the
      sort; null when every part is ignored. */
  function GetCriticalPartState(settings: SrcSettings.Settings, parts: seq<Part>, now: real,
                                catalogue: SrcPartTemperatureState.PartCatalogue): (r: Option<PS.PartState>)
    requires Monitorable(settings, parts)
    ensures r.None? <==> forall j :: 0 <= j < |parts| ==> !IsPartNotIgnored(settings, parts[j])
    ensures r.Some? ==>
              exists i: nat :: IsFirstMaxPart(settings, parts, i)
                && r.value == GetPartState(parts[i], now, catalogue).(cachedIndex := Some(IndexOfPart(parts, i)))
  {
    match Selection.FirstKeptMax(Keys(settings, parts), Kept(settings, parts))
    case None => None
    case Some(i) =>
      assert IsFirstMaxPart(settings, parts, i);
      Some(GetPartState(parts[i], now, catalogue).(cachedIndex := Some(IndexOfPart(parts, i))))
  }

  /** The selected snapshot has positive limits and its cached index is the one computed
      from its temperatures. */
  lemma CriticalIndexIsCached(settings: SrcSettings.Settings, parts: seq<Part>, now: real,
                              catalogue: SrcPartTemperatureState.PartCatalogue)
    requires Monitorable(settings, parts)
    ensures var r := GetCriticalPartState(settings, parts, now, catalogue);
            r.Some? ==> PS.HasPositiveLimits(r.value) && r.value.cachedIndex == Some(PS.ComputedIndex(r.value))
  {
  }

  /** The critical index the gate reads: the cached `Index`. */
  function CriticalIndex(critical: Option<PS.PartState>): (r: Option<real>)
    ensures r.Some? <==> critical.Some? && critical.value.cachedIndex.Some?
    ensures r.Some? ==> r.value == critical.value.cachedIndex.value
  {
    match critical
    case Some(c) => c.cachedIndex
    case None => None
  }

  /** The state the next frame's selection hands its rates to: the new critical state with
      the previous one's rates folded in. */
  function HandOver(critical: Option<PS.PartState>, previous: Option<PS.PartState>): (r: Option<PS.PartState>)
    ensures r.None? <==> critical.None?
    ensures r.Some? ==> r.value == PS.UpdateTemperatureRates(critical.value, previous)
  {
    match critical
    case None => None
    case Some(c) => Some(PS.UpdateTemperatureRates(c, previous))
  }

  /** `Update`: nothing before the window exists or without an active vessel. Otherwise
      the critical state is selected, takes its rates over from `Static.CriticalPartState`,
      replaces it (null included), and the gauge is shown or hidden by the gate on
      `IsVisible` with `ForceShowGauge` as override. */
  function Update(f: Flight, vessel: Option<seq<Part>>, now: real,
                  catalogue: SrcPartTemperatureState.PartCatalogue): (r: Flight)
    requires vessel.Some? ==> Monitorable(f.settings, vessel.value)
    ensures f.gaugeWindow.None? || vessel.None? ==> r == f
    ensures f.gaugeWindow.Some? && vessel.Some? ==>
              var critical := GetCriticalPartState(f.settings, vessel.value, now, catalogue);
              var window := f.gaugeWindow.value;
              && r.settings == f.settings
              && r.criticalPartState == HandOver(critical, f.criticalPartState)
              && r.gaugeWindow == Some(window.(isVisible := GaugeGate.NextVisible(
                   window.isVisible, CriticalIndex(critical),
                   f.settings.gaugeShowingThreshold, f.settings.gaugeHidingThreshold, f.settings.forceShowGauge)))
  {
    match (f.gaugeWindow, vessel)
    case (Some(window), Some(parts)) =>
      var critical := GetCriticalPartState(f.settings, parts, now, catalogue);
      var handedOver := HandOver(critical, f.criticalPartState);
      var index := CriticalIndex(handedOver);
      var window' :=
        if GaugeGate.ShowsGauge(window.isVisible, index, f.settings.gaugeShowingThreshold, f.settings.forceShowGauge)
        then SrcWindow.Show(window)
        else if GaugeGate.HidesGauge(window.isVisible, index, f.settings.gaugeHidingThreshold, f.settings.forceShowGauge)
        then SrcWindow.Hide(window)
        else window;
      f.(criticalPartState := handedOver, gaugeWindow := Some(window'))
    case _ => f
  }

  /** The new critical state inherits smoothed rates only from the previous frame's critical
      state of the same part: when there was none, or the part now selected is a different
      one (whether or not the previous one is still aboard), its rates are 0. */
  lemma RatesInheritedOnlyFromSamePart(f: Flight, parts: seq<Part>, now: real,
                                       catalogue: SrcPartTemperatureState.PartCatalogue)
    requires f.gaugeWindow.Some? && Monitorable(f.settings, parts)
    requires var c := GetCriticalPartState(f.settings, parts, now, catalogue);
             f.criticalPartState.None? || c.None? || c.value.id != f.criticalPartState.value.id
    ensures var r := Update(f, Some(parts), now, catalogue);
            r.criticalPartState.Some? ==>
              r.criticalPartState.value.coreTemperatureRate == 0.0
              && r.criticalPartState.value.skinTemperatureRate == 0.0
  {
  }

  /** The selected snapshot is taken at the frame's time. */
  lemma CriticalStateTakenNow(settings: SrcSettings.Settings, parts: seq<Part>, now: real,
                              catalogue: SrcPartTemperatureState.PartCatalogue)
    requires Monitorable(settings, parts)
    ensures var r := GetCriticalPartState(settings, parts, now, catalogue);
            r.Some? ==> r.value.time == now && r.value.coreTemperatureRate == 0.0 && r.value.skinTemperatureRate == 0.0
  {
    var r := GetCriticalPartState(settings, parts, now, catalogue);
    if r.Some? {
      var i: nat :| IsFirstMaxPart(settings, parts, i)
        && r.value == GetPartState(parts[i], now, catalogue).(cachedIndex := Some(IndexOfPart(parts, i)));
    }
  }

  /** Handing over between two snapshots of the same part, the newer taken at `now`. */
  lemma HandOverStep(c: PS.PartState, p: PS.PartState, now: real)
    requires c.id == p.id && c.time == now && now > p.time
    ensures var r := HandOver(Some(c), Some(p));
            && r.Some?
            && r.value.coreTemperature == c.coreTemperature && r.value.skinTemperature == c.skinTemperature
            && r.value.coreTemperatureRate == Thermal.SmoothedRate(Thermal.CoreSmoothing, p.coreTemperatureRate,
                                                                   c.coreTemperature - p.coreTemperature, 2.0 * (now - p.time))
            && r.value.skinTemperatureRate == Thermal.SmoothedRate(Thermal.SkinSmoothing, p.skinTemperatureRate,
                                                                   c.skinTemperature - p.skinTemperature, 2.0 * (now - p.time))
  {
    PS.RatesStepFromOlderState(c, p);
  }

  /** A frame whose critical part `c` is the previous frame's part `p`: its rates are one
      filter step from the previous rates, over span `2 (now - p.Time)`. */
  lemma RatesFollowSamePart(f: Flight, parts: seq<Part>, now: real,
                            catalogue: SrcPartTemperatureState.PartCatalogue, c: PS.PartState, p: PS.PartState)
    requires f.gaugeWindow.Some? && Monitorable(f.settings, parts)
    requires f.criticalPartState == Some(p) && now > p.time
    requires GetCriticalPartState(f.settings, parts, now, catalogue) == Some(c) && c.id == p.id
    ensures var r := Update(f, Some(parts), now, catalogue).criticalPartState;
            && r.Some?
            && r.value.coreTemperatureRate == Thermal.SmoothedRate(Thermal.CoreSmoothing, p.coreTemperatureRate,
                                                                   c.coreTemperature - p.coreTemperature, 2.0 * (now - p.time))
            && r.value.skinTemperatureRate == Thermal.SmoothedRate(Thermal.SkinSmoothing, p.skinTemperatureRate,
                                                                   c.skinTemperature - p.skinTemperature, 2.0 * (now - p.time))
  {
    CriticalStateTakenNow(f.settings, parts, now, catalogue);
    HandOverStep(c, p, now);
  }
}

=== FILE: src_format.dfy ===
/** Display strings of the `src` generation (src/CriticalTemperatureGauge/Format.cs).
    Numbers come from the runtime's `ToString("F0")` and units from the localiser, both
    given as `Formatting`. */
module SrcFormat {
  import opened Wrappers
  import opened Host
  import opened Text
  import SrcExtensions

  /** `condition.Then(value)`: the value when the condition holds, null otherwise. */
  function Then<T>(condition: bool, value: T): (r: Option<T>)
    ensures r.Some? <==> condition
    ensures r.Some? ==> r.value == value
  {
    if condition then Some(value) else None
  }

  /** The private two-argument `ToUnsignedString`: `ToString("F0")`, right-aligned. */
  function ToUnsignedString(f: Formatting, value: real, intPlaces: int): (r: string)
    ensures var n := f.number(value, 0);
            && |r| == (if intPlaces > |n| then intPlaces else |n|)
            && r[|r| - |n|..] == n
            && forall i :: 0 <= i < |r| - |n| ==> r[i] == FigureSpace
  {
    var numberString := f.number(value, 0);
    Padding(intPlaces, numberString) + numberString
  }

  /** The private `ToSignedString`: `minus` for negative values, `plus` otherwise, then the
      digits of `|value|`; the sign is outside the padded width. */
  function ToSignedString(f: Formatting, value: real, intPlaces: int, minus: string, plus: string): (r: string)
    ensures var n := f.number(if value < 0.0 then -value else value, 0);
            var sign := if value < 0.0 then minus else plus;
            var pad := |r| - |n| - |sign|;
            && |r| == |sign| + (if intPlaces > |n| then intPlaces else |n|)
            && r[pad + |sign|..] == n
            && r[pad..pad + |sign|] == sign
            && forall i :: 0 <= i < pad ==> r[i] == FigureSpace
  {
    var numberString := f.number(if value < 0.0 then -value else value, 0);
    var signString := if value < 0.0 then minus else plus;
    Padding(intPlaces, numberString) + signString + numberString
  }

  /** The two-argument helpers are the `Extensions` helpers with no decimals. */
  lemma PaddingAgreesWithExtensions(f: Formatting, value: real, intPlaces: int)
    ensures ToUnsignedString(f, value, intPlaces) == SrcExtensions.ToUnsignedString(f.number, value, intPlaces, 0)
    ensures ToSignedString(f, value, intPlaces, MinusSign, "+") == SrcExtensions.ToSignedString(f.number, value, intPlaces, 0)
  {
  }

  function Kelvin(f: Formatting): string { f.localize("#LOC_CriticalTemperatureGauge_Kelvin", []) }
  function KelvinPerSecond(f: Formatting): string { f.localize("#LOC_CriticalTemperatureGauge_KelvinPerSecond", []) }
  function Core(f: Formatting): string { f.localize("#LOC_CriticalTemperatureGauge_Core", []) }
  function Skin(f: Formatting): string { f.localize("#LOC_CriticalTemperatureGauge_Skin", []) }

  /** `Temperature(temperature, temperatureLimit)`: the temperature in four places, then
      " / " and the limit in three places when a limit is given, then the unit. */
  function Temperature(f: Formatting, temperature: real, temperatureLimit: Option<real>): (r: string)
    ensures var t := ToUnsignedString(f, temperature, 4);
            && |t| + 1 + |Kelvin(f)| <= |r|
            && r[..|t|] == t
            && r[|r| - |Kelvin(f)| - 1..] == " " + Kelvin(f)
    // without a limit nothing lies between the temperature and the unit
    ensures temperatureLimit.None? ==> |r| == |ToUnsignedString(f, temperature, 4)| + 1 + |Kelvin(f)|
  {
    match temperatureLimit
    case Some(limit) =>
      ToUnsignedString(f, temperature, 4) + " / " + ToUnsignedString(f, limit, 3) + " " + Kelvin(f)
    case None =>
      ToUnsignedString(f, temperature, 4) + " " + Kelvin(f)
  }

  /** Giving a limit inserts exactly " / <limit>" after the temperature. */
  lemma TemperatureLimitInserted(f: Formatting, temperature: real, limit: real)
    ensures var t := ToUnsignedString(f, temperature, 4);
            Temperature(f, temperature, Some(limit))
            == t + " / " + ToUnsignedString(f, limit, 3) + Temperature(f, temperature, None)[|t|..]
  {
    var t := ToUnsignedString(f, temperature, 4);
    assert Temperature(f, temperature, None)[|t|..] == " " + Kelvin(f);
  }

  /** `TemperatureRate(rate)`: three spaces, the signed rate, the unit. */
  function TemperatureRate(f: Formatting, temperatureRate: real): (r: string)
    ensures |r| == 4 + |ToSignedString(f, temperatureRate, 1, MinusSign, "+")| + |KelvinPerSecond(f)|
    ensures r[..3] == "   "
    ensures r[3..|r| - |KelvinPerSecond(f)| - 1] == ToSignedString(f, temperatureRate, 1, MinusSign, "+")
    ensures r[|r| - |KelvinPerSecond(f)| - 1..] == " " + KelvinPerSecond(f)
  {
    "   " + ToSignedString(f, temperatureRate, 1, MinusSign, "+") + " " + KelvinPerSecond(f)
  }

  /** `TemperatureWithRate`: without a rate it is `Temperature`; with one, `Temperature`
      followed by the rate (an en dash for negative rates) and the rate unit. */
  function TemperatureWithRate(f: Formatting, temperature: real, temperatureLimit: Option<real>,
                               temperatureRate: Option<real>): (r: string)
    ensures temperatureRate.None? ==> r == Temperature(f, temperature, temperatureLimit)
    ensures var t := Temperature(f, temperature, temperatureLimit);
            temperatureRate.Some? ==>
              && |t| <= |r|
              && r[..|t|] == t
              && r[|t|..] == " " + ToSignedString(f, temperatureRate.value, 3, EnDash, "+") + " " + KelvinPerSecond(f)
  {
    var t := Temperature(f, temperature, temperatureLimit);
    match temperatureRate
    case Some(rate) =>
      t + (" " + ToSignedString(f, rate, 3, EnDash, "+") + " " + KelvinPerSecond(f))
    case None => t
  }

  /** `PartName(partName, isSkin)`: " <name> (<side>)", the side label chosen by `isSkin`. */
  function PartName(f: Formatting, partName: string, isSkin: bool): (r: string)
    ensures |r| == |partName| + 4 + |if isSkin then Skin(f) else Core(f)|
    ensures r[..|partName| + 3] == " " + partName + " ("
    ensures r[|partName| + 3..] == (if isSkin then Skin(f) else Core(f)) + ")"
  {
    " " + partName + " (" + (if isSkin then Skin(f) else Core(f)) + ")"
  }
}

=== FILE: src_highlighter.dfy ===
/** Part highlighting of the `src` generation (src/CriticalTemperatureGauge/Highlighter.cs):
    a call counter modulo 12 drives the colour, each colour lasting four calls. */
module SrcHighlighter {
  import opened Wrappers
  import opened Host

  /** `FlashPeriod`: calls per colour. */
  const FlashPeriod: nat := 4
  /** The counter's modulus, `HighlightColors.Length * FlashPeriod`. */
  const CycleLength: nat := 12

  datatype Highlighter = Highlighter(
    currentHighlightColor: nat,
    previousHighlightedPart: Option<PartRef>,
    isThereHighlightedPart: bool)

  const Initial: Highlighter := Highlighter(0, None, false)

  predicate Valid(h: Highlighter)
  {
    h.currentHighlightColor < CycleLength
  }

  /** The colour a counter value selects: `HighlightColors[counter / FlashPeriod]`. */
  function ColourOf(counter: nat): (c: Colour)
    requires counter < CycleLength
    ensures counter < 4 ==> c == Yellow
    ensures 4 <= counter < 8 ==> c == Red
    ensures 8 <= counter ==> c == Blue
  {
    HighlightColors[counter / FlashPeriod]
  }

  /** `SetHighlightedPart(part)` with its `SetPartHighlight(part)`: the colour is applied from
      the counter before the call, and the counter then advances, null part or not. */
  function SetHighlightedPart(h: Highlighter, part: Option<PartRef>): (r: (Highlighter, seq<HighlightAction>))
    requires Valid(h)
    ensures Valid(r.0)
    ensures r.0.currentHighlightColor == (h.currentHighlightColor + 1) % CycleLength
    ensures r.0.isThereHighlightedPart == part.Some?
    ensures r.0.previousHighlightedPart == part
    ensures forall p: PartRef :: ResetHighlight(p) in r.1 <==> part != h.previousHighlightedPart && h.previousHighlightedPart == Some(p)
    ensures forall q: PartRef, c: Colour :: ApplyHighlight(q, c) in r.1 <==> part == Some(q) && c == ColourOf(h.currentHighlightColor)
    ensures |r.1| <= 2 && (|r.1| == 2 ==> r.1[0].ResetHighlight? && r.1[1].ApplyHighlight?)
  {
    var resets := if part != h.previousHighlightedPart && h.previousHighlightedPart.Some?
                  then [ResetHighlight(h.previousHighlightedPart.value)] else [];
    var lit := if part.Some? then [ApplyHighlight(part.value, ColourOf(h.currentHighlightColor))] else [];
    (Highlighter((h.currentHighlightColor + 1) % CycleLength, part, part.Some?), resets + lit)
  }

  /** A run of calls, one per frame, with the parts asked for. */
  function Run(h: Highlighter, parts: seq<Option<PartRef>>): (r: Highlighter)
    requires Valid(h)
    ensures Valid(r)
    decreases |parts|
  {
    if |parts| == 0 then h else Run(SetHighlightedPart(h, parts[0]).0, parts[1..])
  }

  /** After `n` calls the counter has moved `n` steps round the cycle. */
  lemma {:induction false} RunCounter(h: Highlighter, parts: seq<Option<PartRef>>)
    requires Valid(h)
    ensures Run(h, parts).currentHighlightColor == (h.currentHighlightColor + |parts|) % CycleLength
    decreases |parts|
  {
    if |parts| > 0 {
      var h1 := SetHighlightedPart(h, parts[0]).0;
      RunCounter(h1, parts[1..]);
      var c := h.currentHighlightColor;
      var n := |parts| - 1;
      ModAddLeft(c + 1, n);
    }
  }

  lemma ModAddLeft(a: nat, b: nat)
    ensures (a % 12 + b) % 12 == (a + b) % 12
  {
    ModShift(a % 12 + b, a / 12);
  }

  lemma {:induction false} ModShift(x: nat, q: nat)
    ensures (x + 12 * q) % 12 == x % 12
  {
    if q > 0 {
      ModShift(x, q - 1);
      assert x + 12 * q == (x + 12 * (q - 1)) + 12;
    }
  }

  /** Starting from a fresh highlighter, call number `4k + j` (`j < 4`) applies colour
      `k mod 3`: each colour is shown for four consecutive calls, in palette order. */
  lemma ColourBlocks(parts: seq<Option<PartRef>>, k: nat, j: nat)
    requires j < FlashPeriod && |parts| == 4 * k + j
    ensures ColourOf(Run(Initial, parts).currentHighlightColor) == HighlightColors[k % 3]
  {
    RunCounter(Initial, parts);
    var n := 4 * k + j;
    var q := k / 3;
    assert k == 3 * q + k % 3;
    assert n == (4 * (k % 3) + j) + 12 * q;
    ModShift(4 * (k % 3) + j, q);
    assert n % 12 == 4 * (k % 3) + j;
  }
}

=== FILE: src_part_state.dfy ===
/** `PartState` of the `src` generation (src/CriticalTemperatureGauge/PartState.cs): a snapshot
    of one part taken by `Flight` each frame, with a memoised index and rates handed over
    from the previous frame's snapshot. */
module SrcPartState {
  import opened Wrappers
  import opened Host
  import Thermal

  datatype PartState = PartState(
    time: real,
    part: Option<PartRef>,
    id: UInt32,
    name: string,
    coreTemperatureLimit: real,
    skinTemperatureLimit: real,
    coreTemperature: real,
    skinTemperature: real,
    coreTemperatureRate: real,
    skinTemperatureRate: real,
    cachedIndex: Option<real>)

  /** Ratios are only taken of parts whose limits are positive. */
  predicate HasPositiveLimits(s: PartState)
  {
    s.coreTemperatureLimit > 0.0 && s.skinTemperatureLimit > 0.0
  }

  predicate IsSkinCritical(s: PartState)
    requires HasPositiveLimits(s)
  {
    Thermal.SkinCritical(s.coreTemperature, s.coreTemperatureLimit, s.skinTemperature, s.skinTemperatureLimit)
  }

  function CriticalTemperatureLimit(s: PartState): real
    requires HasPositiveLimits(s)
  {
    if IsSkinCritical(s) then s.skinTemperatureLimit else s.coreTemperatureLimit
  }

  function CriticalTemperature(s: PartState): real
    requires HasPositiveLimits(s)
  {
    if IsSkinCritical(s) then s.skinTemperature else s.coreTemperature
  }

  function CriticalTemperatureRate(s: PartState): real
    requires HasPositiveLimits(s)
  {
    if IsSkinCritical(s) then s.skinTemperatureRate else s.coreTemperatureRate
  }

  /** The value the `Index` getter computes on a cache miss. */
  function ComputedIndex(s: PartState): real
    requires HasPositiveLimits(s)
  {
    Thermal.Index(s.coreTemperature, s.coreTemperatureLimit, s.skinTemperature, s.skinTemperatureLimit)
  }

  /** The critical side is skin only when the core ratio is strictly smaller (a tie is core),
      and the index is the larger ratio, that of the critical side. */
  lemma CriticalSide(s: PartState)
    requires HasPositiveLimits(s)
    ensures IsSkinCritical(s) <==> s.coreTemperature / s.coreTemperatureLimit < s.skinTemperature / s.skinTemperatureLimit
    ensures ComputedIndex(s) >= s.coreTemperature / s.coreTemperatureLimit
    ensures ComputedIndex(s) >= s.skinTemperature / s.skinTemperatureLimit
    ensures ComputedIndex(s) == CriticalTemperature(s) / CriticalTemperatureLimit(s)
    ensures CriticalTemperatureRate(s) == (if IsSkinCritical(s) then s.skinTemperatureRate else s.coreTemperatureRate)
  {
  }

  /** The `Index` getter: computed on the first read and cached in the state. */
  function ReadIndex(s: PartState): (r: (real, PartState))
    requires HasPositiveLimits(s)
    ensures r.1.cachedIndex == Some(r.0)
    ensures s.cachedIndex.Some? ==> r == (s.cachedIndex.value, s)
    ensures s.cachedIndex.None? ==> r.0 == ComputedIndex(s)
    ensures r.1 == s.(cachedIndex := r.1.cachedIndex)
  {
    match s.cachedIndex
    case Some(v) => (v, s)
    case None =>
      var v := ComputedIndex(s);
      (v, s.(cachedIndex := Some(v)))
  }

  /** Once read, the index no longer follows the temperatures or limits: writing any of
      them through the public setters and reading again gives the first value. */
  lemma IndexMemoised(s: PartState, coreTemperature: real, skinTemperature: real,
                      coreTemperatureLimit: real, skinTemperatureLimit: real)
    requires HasPositiveLimits(s)
    requires coreTemperatureLimit > 0.0 && skinTemperatureLimit > 0.0
    ensures var (first, s1) := ReadIndex(s);
            var s2 := s1.(coreTemperature := coreTemperature, skinTemperature := skinTemperature,
                          coreTemperatureLimit := coreTemperatureLimit, skinTemperatureLimit := skinTemperatureLimit);
            ReadIndex(s2).0 == first
  {
  }

  /** `UpdateTemperatureRates(previousState)`: when the previous snapshot is of the same
      part, the rates continue its filter over span `2 (Time - previous.Time)`, or are copied
      from it when that span is not positive. Only the two rates are written. */
  function UpdateTemperatureRates(s: PartState, previousState: Option<PartState>): (r: PartState)
    ensures previousState.None? || previousState.value.id != s.id ==> r == s
    ensures r == s.(coreTemperatureRate := r.coreTemperatureRate, skinTemperatureRate := r.skinTemperatureRate)
    ensures previousState.Some? && previousState.value.id == s.id ==>
              var p := previousState.value;
              var span := 2.0 * (s.time - p.time);
              && (span <= 0.0 ==> r.coreTemperatureRate == p.coreTemperatureRate
                                  && r.skinTemperatureRate == p.skinTemperatureRate)
              && (span > 0.0 ==>
                    r.coreTemperatureRate == Thermal.SmoothedRate(Thermal.CoreSmoothing, p.coreTemperatureRate,
                                                                  s.coreTemperature - p.coreTemperature, span)
                    && r.skinTemperatureRate == Thermal.SmoothedRate(Thermal.SkinSmoothing, p.skinTemperatureRate,
                                                                     s.skinTemperature - p.skinTemperature, span))
  {
    match previousState
    case None => s
    case Some(p) =>
      if p.id != s.id then s
      else
        var timeSpan := 2.0 * (s.time - p.time);
        s.(coreTemperatureRate := if timeSpan > 0.0
             then (1.0 - Thermal.CoreSmoothing) * p.coreTemperatureRate
                  + Thermal.CoreSmoothing * (s.coreTemperature - p.coreTemperature) / timeSpan
             else p.coreTemperatureRate,
           skinTemperatureRate := if timeSpan > 0.0
             then (1.0 - Thermal.SkinSmoothing) * p.skinTemperatureRate
                  + Thermal.SkinSmoothing * (s.skinTemperature - p.skinTemperature) / timeSpan
             else p.skinTemperatureRate)
  }

  /** Handing over from an older snapshot of the same part takes one filter step from the
      older rates over the doubled time difference. */
  lemma RatesStepFromOlderState(s: PartState, p: PartState)
    requires p.id == s.id && s.time > p.time
    ensures var r := UpdateTemperatureRates(s, Some(p));
            && r.coreTemperatureRate == Thermal.SmoothedRate(Thermal.CoreSmoothing, p.coreTemperatureRate,
                                                             s.coreTemperature - p.coreTemperature, 2.0 * (s.time - p.time))
            && r.skinTemperatureRate == Thermal.SmoothedRate(Thermal.SkinSmoothing, p.skinTemperatureRate,
                                                             s.skinTemperature - p.skinTemperature, 2.0 * (s.time - p.time))
            && r.coreTemperature == s.coreTemperature && r.skinTemperature == s.skinTemperature
  {
  }

  /** Worked example: 300 K at t = 0 with rate 0, then 310 K at t = 1, gives a core rate of
      0.5 * 0 + 0.5 * 10 / 2 = 2.5 K/s. */
  lemma RateExample(p: PartState, s: PartState)
    requires p.id == s.id && p.time == 0.0 && s.time == 1.0
    requires p.coreTemperature == 300.0 && s.coreTemperature == 310.0 && p.coreTemperatureRate == 0.0
    ensures UpdateTemperatureRates(s, Some(p)).coreTemperatureRate == 2.5
  {
  }

  /** Handing over from a snapshot that is not newer leaves the previous rates in force,
      however often it is repeated. */
  lemma RatesHeldOnNonPositiveSpan(s: PartState, p: PartState)
    requires p.id == s.id && s.time <= p.time
    ensures var r := UpdateTemperatureRates(s, Some(p));
            r.coreTemperatureRate == p.coreTemperatureRate && r.skinTemperatureRate == p.skinTemperatureRate
            && UpdateTemperatureRates(r, Some(p)) == r
  {
  }
}

=== FILE: src_part_temperature_state.dfy ===
/** The `PartTemperatureState` part module of the `src` generation
    (src/CriticalTemperatureGauge/PartTemperatureState.cs): it samples the part every physics
    tick, filters the rates and writes the part-menu labels in the same step. */
module SrcPartTemperatureState {
  import opened Wrappers
  import opened Host
  import opened Text
  import Thermal
  import SrcExtensions

  /** What the module reads from its KSP `part`. */
  datatype PartData = PartData(
    name: string,
    maxTemp: real,
    skinMaxTemp: real,
    temperature: real,
    skinTemperature: real)

  /** `PartLoader.getPartInfoByName(name).title` by part name: a missing key is the lookup
      that throws, `None` a null title. */
  type PartCatalogue = map<string, Option<string>>

  /** The three part-menu switches this file reads from `Static.Settings`. The `src`
      `Settings` class declares no such properties, so they are given here. */
  datatype PartMenuSettings = PartMenuSettings(
    partMenuTemperature: bool,
    partMenuTemperatureLimit: bool,
    partMenuTemperatureRate: bool)

  datatype PartTemperatureState = PartTemperatureState(
    time: real,
    title: string,
    coreTemperatureLimit: real,
    skinTemperatureLimit: real,
    coreTemperature: real,
    skinTemperature: real,
    coreTemperatureRate: real,
    skinTemperatureRate: real,
    coreTemperatureMenuLabel: Option<string>,
    skinTemperatureMenuLabel: Option<string>,
    coreTemperatureFieldActive: bool,
    skinTemperatureFieldActive: bool)

  predicate HasPositiveLimits(s: PartTemperatureState)
  {
    s.coreTemperatureLimit > 0.0 && s.skinTemperatureLimit > 0.0
  }

  predicate IsSkinCritical(s: PartTemperatureState)
    requires HasPositiveLimits(s)
  {
    Thermal.SkinCritical(s.coreTemperature, s.coreTemperatureLimit, s.skinTemperature, s.skinTemperatureLimit)
  }

  function CriticalTemperatureLimit(s: PartTemperatureState): real
    requires HasPositiveLimits(s)
  {
    if IsSkinCritical(s) then s.skinTemperatureLimit else s.coreTemperatureLimit
  }

  function CriticalTemperature(s: PartTemperatureState): real
    requires HasPositiveLimits(s)
  {
    if IsSkinCritical(s) then s.skinTemperature else s.coreTemperature
  }

  function Index(s: PartTemperatureState): real
    requires HasPositiveLimits(s)
  {
    Thermal.Index(s.coreTemperature, s.coreTemperatureLimit, s.skinTemperature, s.skinTemperatureLimit)
  }

  /** Skin is critical only on a strictly smaller core ratio; the index is the larger ratio,
      which is the critical temperature over its limit. */
  lemma CriticalSide(s: PartTemperatureState)
    requires HasPositiveLimits(s)
    ensures IsSkinCritical(s) <==> s.coreTemperature / s.coreTemperatureLimit < s.skinTemperature / s.skinTemperatureLimit
    ensures Index(s) >= s.coreTemperature / s.coreTemperatureLimit
    ensures Index(s) >= s.skinTemperature / s.skinTemperatureLimit
    ensures Index(s) == CriticalTemperature(s) / CriticalTemperatureLimit(s)
  {
  }

  /** The part name with the vessel name removed: everything before the first space. */
  function ShortName(partName: string): (r: string)
    ensures r <= partName
    ensures ' ' !in r
    ensures ' ' in partName ==> |r| < |partName| && partName[|r|] == ' '
    ensures ' ' !in partName ==> r == partName
  {
    var indexOfWhitespace := IndexOf(partName, ' ');
    if indexOfWhitespace >= 0 then partName[..indexOfWhitespace] else partName
  }

  /** `GetPartTitle`: the catalogue title of the short name when there is a non-empty one;
      the short name when the lookup fails or the title is null or empty. */
  function GetPartTitle(partName: string, catalogue: PartCatalogue): (r: string)
    ensures var name := ShortName(partName);
            if name in catalogue && catalogue[name].Some? && catalogue[name].value != ""
            then r == catalogue[name].value
            else r == name
  {
    var name := ShortName(partName);
    if name !in catalogue then name
    else
      match catalogue[name]
      case None => name
      case Some(title) => if title == "" then name else title
  }

  /** The title never comes out empty unless the short name itself is empty. */
  lemma PartTitleNonEmpty(partName: string, catalogue: PartCatalogue)
    requires |partName| > 0 && partName[0] != ' '
    ensures GetPartTitle(partName, catalogue) != ""
  {
    var name := ShortName(partName);
    assert name != "" by {
      if ' ' in partName {
        assert partName[|name|] == ' ';
      }
    }
  }

  /** The assignments `InitValues` makes once the waits are over: time, title, limits and
      temperatures from the part, both rates 0; the menu is left as it was. */
  function InitValues(s: PartTemperatureState, universalTime: real, part: PartData,
                      catalogue: PartCatalogue): (r: PartTemperatureState)
    ensures r.time == universalTime && r.title == GetPartTitle(part.name, catalogue)
    ensures r.coreTemperatureLimit == part.maxTemp && r.skinTemperatureLimit == part.skinMaxTemp
    ensures r.coreTemperature == part.temperature && r.skinTemperature == part.skinTemperature
    ensures r.coreTemperatureRate == 0.0 && r.skinTemperatureRate == 0.0
    ensures r.coreTemperatureMenuLabel == s.coreTemperatureMenuLabel
    ensures r.skinTemperatureMenuLabel == s.skinTemperatureMenuLabel
    ensures r.coreTemperatureFieldActive == s.coreTemperatureFieldActive
    ensures r.skinTemperatureFieldActive == s.skinTemperatureFieldActive
  {
    s.(time := universalTime,
       title := GetPartTitle(part.name, catalogue),
       coreTemperatureLimit := part.maxTemp,
       skinTemperatureLimit := part.skinMaxTemp,
       coreTemperature := part.temperature,
       skinTemperature := part.skinTemperature,
       coreTemperatureRate := 0.0,
       skinTemperatureRate := 0.0)
  }

  const TemperatureKey := "#ModCriticalTemperatureGauge_Temperature"
  const TemperatureWithLimitKey := "#ModCriticalTemperatureGauge_TemperatureWithLimit"
  const TemperatureRateKey := "#ModCriticalTemperatureGauge_TemperatureRate"

  /** One part-menu label: null when the menu is off; otherwise the localised temperature
      (four places) and limit (three places), under the key with or without the limit, then,
      when rates are on, a space and the localised signed rate (three places). */
  function MenuLabel(f: Formatting, menu: PartMenuSettings, temperature: real, limit: real, rate: real)
    : (r: Option<string>)
    ensures r.Some? <==> menu.partMenuTemperature
    ensures r.Some? ==>
              var head := f.localize(
                if menu.partMenuTemperatureLimit then TemperatureWithLimitKey else TemperatureKey,
                [SrcExtensions.ToUnsignedString(f.number, temperature, 4, 0),
                 SrcExtensions.ToUnsignedString(f.number, limit, 3, 0)]);
              && |head| <= |r.value| && r.value[..|head|] == head
              && (menu.partMenuTemperatureRate ==>
                    r.value[|head|..] == " " + f.localize(TemperatureRateKey, [SrcExtensions.ToSignedString(f.number, rate, 3, 0)]))
              && (!menu.partMenuTemperatureRate ==> r.value == head)
  {
    if menu.partMenuTemperature then
      var head := f.localize(
        if menu.partMenuTemperatureLimit then TemperatureWithLimitKey else TemperatureKey,
        [SrcExtensions.ToUnsignedString(f.number, temperature, 4, 0),
         SrcExtensions.ToUnsignedString(f.number, limit, 3, 0)]);
      var tail := if menu.partMenuTemperatureRate
        then " " + f.localize(TemperatureRateKey, [SrcExtensions.ToSignedString(f.number, rate, 3, 0)])
        else "";
      assert (head + tail)[..|head|] == head;
      Some(head + tail)
    else None
  }

  /** `FixedUpdate` at universal time `newTime`, in flight with physics running: when the
      state is initialised and time has advanced, one filter step over span
      `2 (newTime - Time)`, the sample stored and both labels rewritten from the NEW values;
      in every such tick, accepted or not, both fields are shown exactly when
      `PartMenuTemperature` is on. Outside flight or with physics held nothing changes. */
  function FixedUpdate(s: PartTemperatureState, menu: PartMenuSettings, f: Formatting, isFlight: bool,
                       holdPhysics: bool, newTime: real, part: PartData): (r: PartTemperatureState)
    ensures !isFlight || holdPhysics ==> r == s
    ensures isFlight && !holdPhysics ==>
              r.coreTemperatureFieldActive == menu.partMenuTemperature
              && r.skinTemperatureFieldActive == menu.partMenuTemperature
    ensures s.time <= 0.0 || newTime <= s.time ==>
              r == s.(coreTemperatureFieldActive := r.coreTemperatureFieldActive,
                      skinTemperatureFieldActive := r.skinTemperatureFieldActive)
    ensures isFlight && !holdPhysics && s.time > 0.0 && newTime > s.time ==>
              var span := 2.0 * (newTime - s.time);
              && r.coreTemperatureRate == Thermal.SmoothedRate(Thermal.CoreSmoothing, s.coreTemperatureRate,
                                                               part.temperature - s.coreTemperature, span)
              && r.skinTemperatureRate == Thermal.SmoothedRate(Thermal.SkinSmoothing, s.skinTemperatureRate,
                                                               part.skinTemperature - s.skinTemperature, span)
              && r.coreTemperature == part.temperature && r.skinTemperature == part.skinTemperature
              && r.time == newTime
              && r.coreTemperatureMenuLabel
                 == MenuLabel(f, menu, part.temperature, s.coreTemperatureLimit, r.coreTemperatureRate)
              && r.skinTemperatureMenuLabel
                 == MenuLabel(f, menu, part.skinTemperature, s.skinTemperatureLimit, r.skinTemperatureRate)
    ensures r.title == s.title && r.coreTemperatureLimit == s.coreTemperatureLimit
            && r.skinTemperatureLimit == s.skinTemperatureLimit
  {
    if isFlight && !holdPhysics then
      var timeSpan := 2.0 * (newTime - s.time);
      var sampled :=
        if s.time > 0.0 && timeSpan > 0.0 then
          var coreRate := (1.0 - Thermal.CoreSmoothing) * s.coreTemperatureRate
                          + Thermal.CoreSmoothing * (part.temperature - s.coreTemperature) / timeSpan;
          var skinRate := (1.0 - Thermal.SkinSmoothing) * s.skinTemperatureRate
                          + Thermal.SkinSmoothing * (part.skinTemperature - s.skinTemperature) / timeSpan;
          s.(coreTemperatureRate := coreRate,
             skinTemperatureRate := skinRate,
             coreTemperature := part.temperature,
             skinTemperature := part.skinTemperature,
             time := newTime,
             coreTemperatureMenuLabel := MenuLabel(f, menu, part.temperature, s.coreTemperatureLimit, coreRate),
             skinTemperatureMenuLabel := MenuLabel(f, menu, part.skinTemperature, s.skinTemperatureLimit, skinRate))
        else s;
      sampled.(coreTemperatureFieldActive := menu.partMenuTemperature,
               skinTemperatureFieldActive := menu.partMenuTemperature)
    else s
  }

  /** A second tick at the same universal time only re-applies the field switches. */
  lemma FixedUpdateOncePerInstant(s: PartTemperatureState, menu: PartMenuSettings, f: Formatting,
                                  newTime: real, part: PartData, later: PartData)
    ensures var r := FixedUpdate(s, menu, f, true, false, newTime, part);
            FixedUpdate(r, menu, f, true, false, newTime, later) == r
  {
  }

  /** Right after `InitValues` the fields keep whatever they had; the first in-flight tick
      sets them from the switch even when it is too early to sample. */
  lemma FieldsFollowSwitchOnFirstTick(s: PartTemperatureState, t0: real, part: PartData,
                                      catalogue: PartCatalogue, menu: PartMenuSettings, f: Formatting)
    ensures var r := FixedUpdate(InitValues(s, t0, part, catalogue), menu, f, true, false, t0, part);
            r.coreTemperatureFieldActive == menu.partMenuTemperature
            && r.coreTemperatureRate == 0.0 && r.skinTemperatureRate == 0.0
  {
  }
}

=== FILE: src_settings.dfy ===
/** `Settings<TAddon>` of the `src` generation (src/CriticalTemperatureGauge/Settings.cs). */
module SrcSettings {
  import Text

  const DefaultGaugeShowingThreshold: real := 0.5
  const DefaultGaugeHidingThreshold: real := 0.4
  const DefaultBaseWindowId: Int32 := -130716

  /** C#'s `int`. */
  type Int32 = x: int | -0x8000_0000 <= x < 0x8000_0000

  datatype Settings = Settings(
    showAppLauncherButton: bool,
    lockGaugeWindow: bool,
    forceShowGauge: bool,
    gaugeShowingThreshold: real,
    gaugeHidingThreshold: real,
    baseWindowId: Int32,
    showTemperature: bool,
    showTemperatureLimit: bool,
    showTemperatureRate: bool,
    showCriticalPart: bool,
    highlightCriticalPart: bool,
    useExclusionList: bool,
    exclusionList: string,
    exclusionListItems: seq<string>)

  /** A freshly constructed object: every field at its .NET default (`null` strings and
      lists represented by empty ones). */
  const Blank: Settings :=
    Settings(false, false, false, 0.0, 0.0, 0, false, false, false, false, false, false, "", [])

  predicate InUnitInterval(value: real)
  {
    value > 0.0 && value < 1.0
  }

  predicate ThresholdsOrdered(s: Settings)
  {
    0.0 < s.gaugeHidingThreshold <= s.gaugeShowingThreshold < 1.0
  }

  /** `GaugeShowingThreshold` setter: out-of-range values fall back to 0.5. */
  function SetGaugeShowingThreshold(s: Settings, value: real): (r: Settings)
    ensures InUnitInterval(r.gaugeShowingThreshold)
    ensures InUnitInterval(value) ==> r.gaugeShowingThreshold == value
    ensures !InUnitInterval(value) ==> r.gaugeShowingThreshold == DefaultGaugeShowingThreshold
    ensures r == s.(gaugeShowingThreshold := r.gaugeShowingThreshold)
  {
    s.(gaugeShowingThreshold := if InUnitInterval(value) then value else DefaultGaugeShowingThreshold)
  }

  /** `GaugeHidingThreshold` setter: out-of-range values fall back to 0.4, capped at the
      current showing threshold. */
  function SetGaugeHidingThreshold(s: Settings, value: real): (r: Settings)
    ensures r.gaugeHidingThreshold <= s.gaugeShowingThreshold
    ensures r.gaugeHidingThreshold < 1.0
    ensures InUnitInterval(s.gaugeShowingThreshold) ==> r.gaugeHidingThreshold > 0.0
    ensures InUnitInterval(value) && value <= s.gaugeShowingThreshold ==> r.gaugeHidingThreshold == value
    ensures !InUnitInterval(value) && DefaultGaugeHidingThreshold <= s.gaugeShowingThreshold
            ==> r.gaugeHidingThreshold == DefaultGaugeHidingThreshold
    // the stored value is the smaller of the showing threshold and the (defaulted) candidate
    ensures var c := if InUnitInterval(value) then value else DefaultGaugeHidingThreshold;
            && r.gaugeHidingThreshold <= c
            && (r.gaugeHidingThreshold == c || r.gaugeHidingThreshold == s.gaugeShowingThreshold)
    ensures r == s.(gaugeHidingThreshold := r.gaugeHidingThreshold)
  {
    var candidate := if InUnitInterval(value) then value else DefaultGaugeHidingThreshold;
    s.(gaugeHidingThreshold := if s.gaugeShowingThreshold <= candidate then s.gaugeShowingThreshold else candidate)
  }

  /** `BaseWindowId` setter: 0 is replaced by the default id, anything else is kept. */
  function SetBaseWindowId(s: Settings, value: Int32): (r: Settings)
    ensures r.baseWindowId != 0
    ensures value != 0 ==> r.baseWindowId == value
    ensures value == 0 ==> r.baseWindowId == DefaultBaseWindowId
    ensures r == s.(baseWindowId := r.baseWindowId)
  {
    s.(baseWindowId := if value != 0 then value else DefaultBaseWindowId)
  }

  /** `ExclusionList` setter: the raw string is kept verbatim and the item list is re-parsed. */
  function SetExclusionList(s: Settings, value: string): (r: Settings)
    ensures r.exclusionList == value
    ensures r.exclusionListItems == Text.ParseCommaList(value)
    ensures forall i :: 0 <= i < |r.exclusionListItems| ==>
              r.exclusionListItems[i] != "" && Text.IsTrimmed(r.exclusionListItems[i])
              && ',' !in r.exclusionListItems[i]
    ensures r == s.(exclusionList := value, exclusionListItems := r.exclusionListItems)
  {
    s.(exclusionList := value, exclusionListItems := Text.ParseCommaList(value))
  }

  lemma HidingSetterOrders(s: Settings, value: real)
    requires InUnitInterval(s.gaugeShowingThreshold)
    ensures ThresholdsOrdered(SetGaugeHidingThreshold(s, value))
  {
  }

  /** The values in the configuration file, by property name (`PluginConfiguration`). */
  datatype Stored = Stored(bools: map<string, bool>, reals: map<string, real>,
                           ints: map<string, Int32>, strings: map<string, string>)

  /** `settings.GetValue(key, default)`. */
  function GetValue<T>(m: map<string, T>, key: string, default: T): T
  {
    if key in m then m[key] else default
  }

  /** The initialiser assignments of `Load` up to, but not including, the exclusion list,
      in declaration order: showing threshold before hiding threshold. */
  function LoadSwitchesAndThresholds(stored: Stored): (r: Settings)
    ensures ThresholdsOrdered(r)
  {
    var b := stored.bools;
    var s1 := Blank.(
      showAppLauncherButton := GetValue(b, "ShowAppLauncherButton", true),
      lockGaugeWindow := GetValue(b, "LockGaugeWindow", true),
      forceShowGauge := GetValue(b, "ForceShowGauge", false));
    var s2 := SetGaugeShowingThreshold(s1, GetValue(stored.reals, "GaugeShowingThreshold", DefaultGaugeShowingThreshold));
    var s3 := SetGaugeHidingThreshold(s2, GetValue(stored.reals, "GaugeHidingThreshold", DefaultGaugeHidingThreshold));
    s3.(
      showTemperature := GetValue(b, "ShowTemperature", true),
      showTemperatureLimit := GetValue(b, "ShowTemperatureLimit", true),
      showTemperatureRate := GetValue(b, "ShowTemperatureRate", true),
      showCriticalPart := GetValue(b, "ShowCriticalPart", true),
      highlightCriticalPart := GetValue(b, "HighlightCriticalPart", false),
      useExclusionList := GetValue(b, "UseExclusionList", false))
  }

  /** `Load` as written: `BaseWindowId` is never assigned, so it keeps the blank 0. */
  function Load(stored: Stored): (r: Settings)
    ensures ThresholdsOrdered(r)
    ensures var showing := GetValue(stored.reals, "GaugeShowingThreshold", DefaultGaugeShowingThreshold);
            r.gaugeShowingThreshold == if InUnitInterval(showing) then showing else DefaultGaugeShowingThreshold
    // the stored (or default) hiding threshold, capped by the showing threshold loaded just before it
    ensures var hiding := GetValue(stored.reals, "GaugeHidingThreshold", DefaultGaugeHidingThreshold);
            var wanted := if InUnitInterval(hiding) then hiding else DefaultGaugeHidingThreshold;
            r.gaugeHidingThreshold == if r.gaugeShowingThreshold <= wanted then r.gaugeShowingThreshold else wanted
    ensures r.exclusionList == GetValue(stored.strings, "ExclusionList", "")
    ensures r.exclusionListItems == Text.ParseCommaList(r.exclusionList)
    ensures r.forceShowGauge == GetValue(stored.bools, "ForceShowGauge", false)
    ensures r.useExclusionList == GetValue(stored.bools, "UseExclusionList", false)
    ensures r.highlightCriticalPart == GetValue(stored.bools, "HighlightCriticalPart", false)
  {
    SetExclusionList(LoadSwitchesAndThresholds(stored), GetValue(stored.strings, "ExclusionList", ""))
  }

  /** The setter promises a non-zero `BaseWindowId`, yet every loaded settings object has 0,
      whatever the configuration file holds. */
  lemma LoadLeavesBaseWindowIdZero(stored: Stored)
    ensures Load(stored).baseWindowId == 0
  {
  }

  /** `Load` with the evidently intended initialiser `BaseWindowId = settings.GetValue(
      nameof(BaseWindowId), DefaultBaseWindowId)`, written through the setter. */
  function LoadWithBaseWindowId(stored: Stored): (r: Settings)
    ensures ThresholdsOrdered(r)
    ensures r.baseWindowId != 0
    ensures "BaseWindowId" !in stored.ints ==> r.baseWindowId == DefaultBaseWindowId
    ensures "BaseWindowId" in stored.ints && stored.ints["BaseWindowId"] != 0
            ==> r.baseWindowId == stored.ints["BaseWindowId"]
    ensures "BaseWindowId" in stored.ints && stored.ints["BaseWindowId"] == 0
            ==> r.baseWindowId == DefaultBaseWindowId
    ensures r == Load(stored).(baseWindowId := r.baseWindowId)
  {
    var s := LoadSwitchesAndThresholds(stored);
    var s' := SetBaseWindowId(s, GetValue(stored.ints, "BaseWindowId", DefaultBaseWindowId));
    SetExclusionList(s', GetValue(stored.strings, "ExclusionList", ""))
  }

  /** With an empty configuration file every setting takes its default: as written the window
      id is left at 0; the corrected load gives it its default -130716. */
  lemma LoadDefaults(stored: Stored)
    requires |stored.bools| == 0 && |stored.reals| == 0 && |stored.ints| == 0 && |stored.strings| == 0
    ensures Load(stored) ==
            Settings(true, true, false, 0.5, 0.4, 0, true, true, true, true, false, false, "", [])
    ensures LoadWithBaseWindowId(stored) ==
            Settings(true, true, false, 0.5, 0.4, -130716, true, true, true, true, false, false, "", [])
  {
    Text.ParseEmptyList();
  }
}

=== FILE: src_window.dfy ===
/** The abstract `Window` of the `src` generation (src/CriticalTemperatureGauge/Window.cs):
    one visibility flag and a lazily initialised rectangle. */
module SrcWindow {
  import opened Wrappers
  import opened Host

  datatype Window = Window(isVisible: bool, rectangle: Option<Rect>)

  /** A new window is hidden and has not read its rectangle yet. */
  const Initial: Window := Window(false, None)

  function Show(w: Window): (r: Window)
    ensures r.isVisible && r.rectangle == w.rectangle
  {
    w.(isVisible := true)
  }

  function Hide(w: Window): (r: Window)
    ensures !r.isVisible && r.rectangle == w.rectangle
  {
    w.(isVisible := false)
  }

  /** `WindowRectangle` getter: initialised once from `InitialWindowRectangle`. */
  function GetRectangle(w: Window, initial: Rect): (r: (Rect, Window))
    ensures r.1.rectangle == Some(r.0) && r.1.isVisible == w.isVisible
    ensures w.rectangle.Some? ==> r.0 == w.rectangle.value && r.1 == w
    ensures w.rectangle.None? ==> r.0 == initial
  {
    match w.rectangle
    case Some(rect) => (rect, w)
    case None => (initial, w.(rectangle := Some(initial)))
  }

  lemma RectangleReadOnce(w: Window, initial: Rect, later: Rect)
    ensures GetRectangle(GetRectangle(w, initial).1, later) == GetRectangle(w, initial)
  {
  }

  /** `WindowRectangle` setter: stores, then calls `OnWindowRectUpdated`. */
  function SetRectangle(w: Window, rect: Rect): (r: (Window, Option<Rect>))
    ensures r.0 == w.(rectangle := Some(rect)) && r.1 == Some(rect)
  {
    (w.(rectangle := Some(rect)), Some(rect))
  }

  /** `DrawGUI`: when visible, stores what `GUILayout.Window` (`layout`) returns for the
      current rectangle; while hidden it does nothing. */
  function DrawGUI(w: Window, initial: Rect, layout: Rect -> Rect): (r: (Window, Option<Rect>))
    ensures !w.isVisible ==> r == (w, None)
    ensures w.isVisible ==> r.0.isVisible && r.1.Some? && r.0.rectangle == r.1
    ensures w.isVisible ==> r.1.value == layout(GetRectangle(w, initial).0)
  {
    if !w.isVisible then (w, None)
    else
      var (current, w1) := GetRectangle(w, initial);
      SetRectangle(w1, layout(current))
  }
}

=== FILE: text.dfy ===
/** The .NET string operations the add-on relies on, on `string` = `seq<char>`. */
module Text {

  /** `char.IsWhiteSpace`: the Unicode space separators plus the line, paragraph
      and control characters .NET treats as white space. */
  predicate IsWhiteSpace(c: char)
  {
    || '\U{0009}' <= c <= '\U{000D}' || c == '\U{0020}' || c == '\U{0085}' || c == '\U{00A0}'
    || c == '\U{1680}' || '\U{2000}' <= c <= '\U{200A}' || c == '\U{2028}' || c == '\U{2029}'
    || c == '\U{202F}' || c == '\U{205F}' || c == '\U{3000}'
  }

  predicate AllWhiteSpace(s: string)
  {
    forall i :: 0 <= i < |s| ==> IsWhiteSpace(s[i])
  }

  /** No white space at either end: what `Trim` leaves. */
  predicate IsTrimmed(s: string)
  {
    |s| > 0 ==> !IsWhiteSpace(s[0]) && !IsWhiteSpace(s[|s| - 1])
  }

  /** Leading white space removed. */
  function TrimStart(s: string): (r: string)
    ensures |r| <= |s| && r == s[|s| - |r|..]
    ensures AllWhiteSpace(s[..|s| - |r|])
    ensures |r| > 0 ==> !IsWhiteSpace(r[0])
  {
    if |s| > 0 && IsWhiteSpace(s[0]) then
      var r := TrimStart(s[1..]);
      assert s[..|s| - |r|] == [s[0]] + s[1..][..|s[1..]| - |r|];
      r
    else s
  }

  /** Trailing white space removed. */
  function TrimEnd(s: string): (r: string)
    ensures |r| <= |s| && r == s[..|r|]
    ensures AllWhiteSpace(s[|r|..])
    ensures |r| > 0 ==> !IsWhiteSpace(r[|r| - 1])
  {
    if |s| > 0 && IsWhiteSpace(s[|s| - 1]) then
      var r := TrimEnd(s[..|s| - 1]);
      assert s[|r|..] == s[..|s| - 1][|r|..] + [s[|s| - 1]];
      r
    else s
  }

  /** The number of white-space characters `TrimStart` removes. */
  function LeadingWhiteSpace(s: string): (n: nat)
    ensures n <= |s|
  {
    |s| - |TrimStart(s)|
  }

  /** `String.Trim()`: `s` is some white space, then the result, then some white space. */
  function Trim(s: string): (r: string)
    ensures IsTrimmed(r)
    ensures LeadingWhiteSpace(s) + |r| <= |s|
    ensures r == s[LeadingWhiteSpace(s)..LeadingWhiteSpace(s) + |r|]
    ensures AllWhiteSpace(s[..LeadingWhiteSpace(s)])
    ensures AllWhiteSpace(s[LeadingWhiteSpace(s) + |r|..])
  {
    var t := TrimStart(s);
    var r := TrimEnd(t);
    SuffixPrefixSlices(s, |s| - |t|, t, r);
    r
  }

  /** A prefix `r` of the suffix `t` of `s` starting at `k` sits at `k` in `s`, and what
      follows it in `t` is what follows it in `s`. */
  lemma SuffixPrefixSlices(s: string, k: nat, t: string, r: string)
    requires k <= |s| && t == s[k..]
    requires |r| <= |t| && r == t[..|r|]
    ensures r == s[k..k + |r|]
    ensures s[k + |r|..] == t[|r|..]
    ensures |r| > 0 ==> r[0] == t[0]
  {
  }

  /** Trimming changes nothing when there is no white space at the ends. */
  lemma TrimOfTrimmed(s: string)
    requires IsTrimmed(s)
    ensures Trim(s) == s
  {
  }

  /** `s.IndexOf(c)`: the first position of `c`, or -1 when `c` does not occur. */
  function IndexOf(s: string, c: char): (r: int)
    ensures -1 <= r < |s|
    ensures r == -1 <==> c !in s
    ensures r >= 0 ==> s[r] == c && c !in s[..r]
  {
    if |s| == 0 then -1
    else if s[0] == c then 0
    else
      var r := IndexOf(s[1..], c);
      assert r >= 0 ==> s[..r + 1] == [s[0]] + s[1..][..r];
      if r < 0 then -1 else r + 1
  }

  /** `new string(c, n)`. */
  function Repeat(c: char, n: nat): (r: string)
    ensures |r| == n
    ensures forall i :: 0 <= i < n ==> r[i] == c
  {
    if n == 0 then [] else [c] + Repeat(c, n - 1)
  }

  /** U+2007 FIGURE SPACE: as wide as a digit, used to right-align numbers. */
  const FigureSpace: char := '\U{2007}'
  /** U+2212 MINUS SIGN. */
  const MinusSign: string := "\U{2212}"
  /** U+2013 EN DASH, the minus of the part-menu rate. */
  const EnDash: string := "\U{2013}"

  /** `new string(FigureSpace, Math.Max(0, width - |s|))`: the padding that right-aligns `s`
      in a field of `width` characters. */
  function Padding(width: int, s: string): (r: string)
    ensures |r| == if width > |s| then width - |s| else 0
    ensures forall i :: 0 <= i < |r| ==> r[i] == FigureSpace
  {
    Repeat(FigureSpace, if width > |s| then width - |s| else 0)
  }

  /** `s.Split(sep)`: the maximal runs between separators, empty runs included. */
  function Split(s: string, sep: char): (r: seq<string>)
    ensures |r| > 0
    ensures forall i :: 0 <= i < |r| ==> sep !in r[i]
  {
    if |s| == 0 then [""]
    else
      var rest := Split(s[1..], sep);
      if s[0] == sep then [""] + rest
      else [[s[0]] + rest[0]] + rest[1..]
  }

  /** `String.Join(sep, pieces)`: the inverse of `Split`. */
  function Join(pieces: seq<string>, sep: char): string
  {
    if |pieces| == 0 then ""
    else if |pieces| == 1 then pieces[0]
    else pieces[0] + [sep] + Join(pieces[1..], sep)
  }

  /** Splitting loses nothing: joining the pieces again gives back the string. */
  lemma {:induction false} JoinSplit(s: string, sep: char)
    ensures Join(Split(s, sep), sep) == s
  {
    if |s| > 0 {
      JoinSplit(s[1..], sep);
      var rest := Split(s[1..], sep);
      if s[0] != sep {
        if |rest| > 1 {
          assert Join(rest, sep) == rest[0] + [sep] + Join(rest[1..], sep);
        }
      }
      assert s == [s[0]] + s[1..];
    }
  }

  /** A string without the separator is a single piece. */
  lemma {:induction false} SplitWithoutSeparator(s: string, sep: char)
    requires sep !in s
    ensures Split(s, sep) == [s]
  {
    if |s| > 0 {
      assert sep !in s[1..];
      SplitWithoutSeparator(s[1..], sep);
      assert s == [s[0]] + s[1..];
    }
  }

  /** Splitting at a separator splits the two sides independently. */
  lemma {:induction false} SplitConcat(a: string, b: string, sep: char)
    ensures Split(a + [sep] + b, sep) == Split(a, sep) + Split(b, sep)
  {
    var s := a + [sep] + b;
    if |a| == 0 {
      assert s[1..] == b;
    } else {
      assert s[1..] == a[1..] + [sep] + b;
      SplitConcat(a[1..], b, sep);
    }
  }

  /** Keeps the non-empty strings, in order (`.Where(item => !string.IsNullOrEmpty(item))`). */
  function NonEmpty(xs: seq<string>): (r: seq<string>)
    ensures |r| <= |xs|
    ensures forall i :: 0 <= i < |r| ==> r[i] != "" && r[i] in xs
  {
    if |xs| == 0 then []
    else if xs[0] == "" then NonEmpty(xs[1..])
    else [xs[0]] + NonEmpty(xs[1..])
  }

  lemma {:induction false} NonEmptyConcat(xs: seq<string>, ys: seq<string>)
    ensures NonEmpty(xs + ys) == NonEmpty(xs) + NonEmpty(ys)
  {
    if |xs| > 0 {
      assert (xs + ys)[1..] == xs[1..] + ys;
      NonEmptyConcat(xs[1..], ys);
    } else {
      assert xs + ys == ys;
    }
  }

  /** `.Select(item => item.Trim())`. */
  function TrimAll(xs: seq<string>): (r: seq<string>)
    ensures |r| == |xs|
    ensures forall i :: 0 <= i < |xs| ==> r[i] == Trim(xs[i])
  {
    if |xs| == 0 then [] else [Trim(xs[0])] + TrimAll(xs[1..])
  }

  lemma {:induction false} TrimAllConcat(xs: seq<string>, ys: seq<string>)
    ensures TrimAll(xs + ys) == TrimAll(xs) + TrimAll(ys)
  {
    if |xs| > 0 {
      assert (xs + ys)[1..] == xs[1..] + ys;
      TrimAllConcat(xs[1..], ys);
    } else {
      assert xs + ys == ys;
    }
  }

  /** The comma-separated list parser shared by both generations of `Settings.ExclusionList`:
      split at ',', trim each piece, drop empty pieces. Every item is non-empty, trimmed
      and free of commas. */
  function ParseCommaList(s: string): (items: seq<string>)
    ensures forall i :: 0 <= i < |items| ==>
              items[i] != "" && IsTrimmed(items[i]) && ',' !in items[i]
  {
    var pieces := Split(s, ',');
    var r := NonEmpty(TrimAll(pieces));
    forall i | 0 <= i < |r|
      ensures IsTrimmed(r[i]) && ',' !in r[i]
    {
      var j :| 0 <= j < |pieces| && TrimAll(pieces)[j] == r[i];
      TrimIsInside(pieces[j], ',');
    }
    r
  }

  /** Trimming a piece keeps it free of a character it did not contain. */
  lemma TrimIsInside(s: string, c: char)
    requires c !in s
    ensures c !in Trim(s)
  {
  }

  /** The parser keeps order: the items of a list joined at a comma are the items of the
      left part followed by the items of the right part. */
  lemma ParseCommaListConcat(a: string, b: string)
    ensures ParseCommaList(a + "," + b) == ParseCommaList(a) + ParseCommaList(b)
  {
    SplitConcat(a, b, ',');
    TrimAllConcat(Split(a, ','), Split(b, ','));
    NonEmptyConcat(TrimAll(Split(a, ',')), TrimAll(Split(b, ',')));
  }

  /** A piece without a comma parses to its trimmed form, or to nothing when that is empty.
      With `ParseCommaListConcat` this determines the parser on every input. */
  lemma ParseSinglePiece(x: string)
    requires ',' !in x
    ensures ParseCommaList(x) == if Trim(x) == "" then [] else [Trim(x)]
  {
    SplitWithoutSeparator(x, ',');
    assert TrimAll([x]) == [Trim(x)];
    assert [Trim(x)][1..] == [];
  }

  /** The empty list (the settings default) has no items. */
  lemma ParseEmptyList()
    ensures ParseCommaList("") == []
  {
    assert Split("", ',') == [""];
    assert TrimAll([""]) == [Trim("")];
  }

  /** Round trip: writing the items back as a comma-separated list and parsing it
      again yields exactly the same items. */
  lemma {:induction false} ParseJoinedItems(items: seq<string>)
    requires forall i :: 0 <= i < |items| ==> items[i] != "" && IsTrimmed(items[i]) && ',' !in items[i]
    ensures ParseCommaList(Join(items, ',')) == items
  {
    if |items| == 0 {
      ParseEmptyList();
    } else {
      var x := items[0];
      SplitWithoutSeparator(x, ',');
      TrimOfTrimmed(x);
      assert TrimAll([x]) == [x];
      assert ParseCommaList(x) == [x];
      if |items| > 1 {
        ParseJoinedItems(items[1..]);
        ParseCommaListConcat(x, Join(items[1..], ','));
        assert Join(items, ',') == x + "," + Join(items[1..], ',');
      }
    }
  }
}

=== FILE: thermal.dfy ===
/** The thermal arithmetic shared, character for character, by the root `PartTemperatureState`,
    the `src` `PartState` and the `src` `PartTemperatureState`. */
module Thermal {

  /** `CoreTemperatureRateSmoothing`: the weight of a new core sample. */
  const CoreSmoothing: real := 0.5
  /** `SkinTemperatureRateSmoothing`: skin is smoothed harder. */
  const SkinSmoothing: real := 0.1

  /** Temperature over limit; 1.0 means "at the limit". */
  function Ratio(temperature: real, limit: real): real
    requires limit > 0.0
  {
    temperature / limit
  }

  /** `Math.Max` on doubles that are not NaN. */
  function Max(a: real, b: real): (r: real)
    ensures r >= a && r >= b
    ensures r == a || r == b
  {
    if a >= b then a else b
  }

  /** Skin is the critical side only when the core ratio is strictly smaller. */
  predicate SkinCritical(coreTemperature: real, coreLimit: real, skinTemperature: real, skinLimit: real)
    requires coreLimit > 0.0 && skinLimit > 0.0
  {
    Ratio(coreTemperature, coreLimit) < Ratio(skinTemperature, skinLimit)
  }

  /** The criticality index: the larger of the two ratios. */
  function Index(coreTemperature: real, coreLimit: real, skinTemperature: real, skinLimit: real): (r: real)
    requires coreLimit > 0.0 && skinLimit > 0.0
    ensures r >= Ratio(coreTemperature, coreLimit) && r >= Ratio(skinTemperature, skinLimit)
    ensures r == (if SkinCritical(coreTemperature, coreLimit, skinTemperature, skinLimit)
                  then Ratio(skinTemperature, skinLimit) else Ratio(coreTemperature, coreLimit))
  {
    Max(Ratio(coreTemperature, coreLimit), Ratio(skinTemperature, skinLimit))
  }

  /** One step of the exponential rate filter: the old estimate weighted by `1 - alpha`
      plus the sampled slope `temperatureChange / timeSpan` weighted by `alpha`.
      The new estimate lies between the old estimate and the sampled slope, and its distance
      to the sample is the old distance shrunk by the factor `1 - alpha`. */
  function SmoothedRate(alpha: real, previousRate: real, temperatureChange: real, timeSpan: real): (r: real)
    requires 0.0 < alpha < 1.0 && timeSpan > 0.0
    ensures r - temperatureChange / timeSpan == (1.0 - alpha) * (previousRate - temperatureChange / timeSpan)
    ensures previousRate <= temperatureChange / timeSpan ==> previousRate <= r <= temperatureChange / timeSpan
    ensures temperatureChange / timeSpan <= previousRate ==> temperatureChange / timeSpan <= r <= previousRate
  {
    var r := (1.0 - alpha) * previousRate + alpha * temperatureChange / timeSpan;
    SlopeFactor(alpha, temperatureChange, timeSpan);
    ConvexStep(alpha, previousRate, temperatureChange / timeSpan);
    r
  }

  lemma SlopeFactor(alpha: real, change: real, span: real)
    requires span > 0.0
    ensures alpha * change / span == alpha * (change / span)
  {
  }

  /** A convex combination of two values lies between them. */
  lemma ConvexStep(alpha: real, p: real, s: real)
    requires 0.0 < alpha < 1.0
    ensures (1.0 - alpha) * p + alpha * s - s == (1.0 - alpha) * (p - s)
    ensures p <= s ==> p <= (1.0 - alpha) * p + alpha * s <= s
    ensures s <= p ==> s <= (1.0 - alpha) * p + alpha * s <= p
  {
    var r := (1.0 - alpha) * p + alpha * s;
    assert r - p == alpha * (s - p);
    assert s - r == (1.0 - alpha) * (s - p);
    if p <= s {
      ProductNonNegative(alpha, s - p);
      ProductNonNegative(1.0 - alpha, s - p);
    } else {
      ProductNonNegative(alpha, p - s);
      ProductNonNegative(1.0 - alpha, p - s);
    }
  }

  lemma ProductNonNegative(x: real, y: real)
    requires x >= 0.0 && y >= 0.0
    ensures x * y >= 0.0
  {
  }

  /** The filter leaves a settled estimate alone: a sample equal to the estimate keeps it. */
  lemma SmoothedRateFixedPoint(alpha: real, previousRate: real, temperatureChange: real, timeSpan: real)
    requires 0.0 < alpha < 1.0 && timeSpan > 0.0
    ensures SmoothedRate(alpha, previousRate, temperatureChange, timeSpan) == previousRate
            <==> temperatureChange / timeSpan == previousRate
  {
  }

  /** Monotonic index ordering: raising either ratio never lowers the index. */
  lemma IndexMonotonic(ct: real, cl: real, st: real, sl: real, ct': real, cl': real, st': real, sl': real)
    requires cl > 0.0 && sl > 0.0 && cl' > 0.0 && sl' > 0.0
    requires Ratio(ct, cl) <= Ratio(ct', cl') && Ratio(st, sl) <= Ratio(st', sl')
    ensures Index(ct, cl, st, sl) <= Index(ct', cl', st', sl')
  {
  }
}

=== FILE: variants.dfy ===
/** How the three rate filters of the two generations relate: the root part module, the
    `src` part module, and the `src` snapshot hand-over all take the same step on the same
    samples; they differ only in their guards. */
module Variants {
  import opened Wrappers
  import Host
  import RootPTS = RootPartTemperatureState
  import SrcPTS = SrcPartTemperatureState
  import PS = SrcPartState

  /** A root module and a `src` module hold the same sample. */
  predicate SameSample(a: RootPTS.PartTemperatureState, b: SrcPTS.PartTemperatureState)
  {
    a.time == b.time && a.coreTemperature == b.coreTemperature && a.skinTemperature == b.skinTemperature
    && a.coreTemperatureRate == b.coreTemperatureRate && a.skinTemperatureRate == b.skinTemperatureRate
  }

  /** For a monitored part the two part modules' physics ticks keep the same sample. */
  lemma PartModulesAgree(a: RootPTS.PartTemperatureState, b: SrcPTS.PartTemperatureState,
                         menu: SrcPTS.PartMenuSettings, f: Host.Formatting, isFlight: bool, holdPhysics: bool,
                         newTime: real,
                         rootPart: RootPTS.PartData, srcPart: SrcPTS.PartData)
    requires SameSample(a, b) && a.isNotIgnored
    requires rootPart.temperature == srcPart.temperature && rootPart.skinTemperature == srcPart.skinTemperature
    ensures SameSample(RootPTS.FixedUpdate(a, isFlight, holdPhysics, newTime, rootPart),
                       SrcPTS.FixedUpdate(b, menu, f, isFlight, holdPhysics, newTime, srcPart))
  {
  }

  /** The `src` snapshot hand-over takes the root module's step: a snapshot at `newTime`
      handed the rates of a snapshot holding the module's sample gets the rates the module
      computes, provided the module's sample is initialised (`Time > 0`). */
  lemma SnapshotAgreesWithModule(a: RootPTS.PartTemperatureState, previous: PS.PartState, current: PS.PartState,
                                 newTime: real, part: RootPTS.PartData)
    requires a.isNotIgnored && a.time > 0.0
    requires previous.id == current.id && previous.time == a.time && current.time == newTime
    requires previous.coreTemperature == a.coreTemperature && previous.skinTemperature == a.skinTemperature
    requires previous.coreTemperatureRate == a.coreTemperatureRate && previous.skinTemperatureRate == a.skinTemperatureRate
    requires current.coreTemperature == part.temperature && current.skinTemperature == part.skinTemperature
    ensures var m := RootPTS.FixedUpdate(a, true, false, newTime, part);
            var s := PS.UpdateTemperatureRates(current, Some(previous));
            newTime > a.time ==> m.coreTemperatureRate == s.coreTemperatureRate
                                 && m.skinTemperatureRate == s.skinTemperatureRate
  {
  }

  /** The guards differ: a snapshot taken at time 0 still starts the filter, while a module
      whose `Time` is 0 never samples. */
  lemma SnapshotHasNoInitialisedGuard(a: RootPTS.PartTemperatureState, previous: PS.PartState, current: PS.PartState,
                                      part: RootPTS.PartData)
    requires a.isNotIgnored && a.time == 0.0 && a.coreTemperatureRate == 0.0 && a.coreTemperature == 300.0
    requires previous.id == current.id && previous.time == 0.0 && current.time == 1.0
    requires previous.coreTemperature == 300.0 && previous.coreTemperatureRate == 0.0
    requires current.coreTemperature == 310.0 && part.temperature == 310.0
    ensures RootPTS.FixedUpdate(a, true, false, 1.0, part).coreTemperatureRate == 0.0
    ensures PS.UpdateTemperatureRates(current, Some(previous)).coreTemperatureRate == 2.5
  {
  }
}

=== FILE: wrappers.dfy ===
/** Option: the model's stand-in for a C# `null` reference or a `Nullable<T>` value. */
module Wrappers {

  datatype Option<+T> = None | Some(value: T) {

    /** Returns the encapsulated value, or `default` for `None` (C#'s `??`). */
    function GetOr(default: T): T
    {
      match this
      case Some(v) => v
      case None => default
    }
  }
}
